=== FILE: README.md ===
# Commission calculator: the calculation engine

This project models the real-estate commission calculator in `src/App.js`. It
covers what happens when the agent presses "Calculate":

- the lead-source referral-fee table, including the Zillow.com price rule;
- the sphere-of-influence (SOI) split table, keyed by tenure;
- how the commission text is read, as a percentage of the contract price or as a
  flat dollar amount (the form as written always holds `"3%"`);
- how the contract-price field is read, as typed text stripped to digits and dots
  and then converted with `Number`;
- the missing-field check, which reports every missing field, not just the first;
- the settlement: referral fee, agent split, brokerage commission and royalty, each
  stopping at its cap or dropping to nothing once the agent has capped, then net
  income and the "agent/brokerage" split label.

The model is written as pure functions over immutable values:

- `Values`: the calculator's numbers. A JavaScript number is either NaN or an exact
  real. With the commission fixed at `"3%"`, and apart from overflow past the
  largest double (see "Left out"), NaN (from a price whose digits and dots do not
  form a number: a lone dot, two dots) is the only non-finite value the calculator
  can reach.
- `JsText`: the string primitives the code relies on, as ECMAScript defines them:
  `trim`, the `/[^\d.]/g` strip, `parseFloat` (longest numeric prefix, with sign,
  fraction and exponent), `Number` on a digit/dot string, and the decimal rendering
  a template literal produces.
- `Referral`: the lead sources, their select keys, the referral table, and how the
  calculation resolves a rate.
- `Splits`: the tenure, the agent's split and the split label.
- `CommissionInput`: the commission text and the price field.
- `Engine`: the deal as the form holds it, validation, the settlement and the
  "Calculate" action.
- `EngineLaws`: what the calculation guarantees. The bounds on each amount, the
  brokerage deductions, and the ledger in which every dollar of the commission is
  accounted for.
- `Scenarios`: four deals, each with the breakdown it produces. Prices are entered
  as a user types them (`"$300,000"`). Three deals use the form's `"3%"`; the fourth
  uses the flat text `"$9,000"`, which the form as written cannot produce, to show
  the flat-amount reading.

What `src/App.js` fixes in its rules:

- The Zillow.com rate has one tier scheme: 30% below 150,000, 35% up to and
  including 250,000, and 40% above.
- OpCity is a constant 25% and OpenDoor (LWOD) a constant 35%. The "Other" entry
  is a rule that always yields 0.
- The brokerage commission cap is always 5,000 and the royalty cap always 3,000.
- Validation collects every missing field in the form's order instead of stopping
  at the first one. The commission text is not validated: a flat amount that does
  not parse reads as 0, and a percentage with no number in front of the `%` gives
  NaN.
- The form renders no commission input: `commissionInput` starts as `"3%"`
  (src/App.js:7) and nothing changes it, so in the program every commission is 3%
  of the price. The model takes any commission text, so that `parseCommission`
  (src/App.js:66-73) is modelled in full, flat-amount branch included.

## Model

| member | source | states |
|---|---|---|
| Values.Round | src/App.js:109 | `Math.round` gives the integer within half a unit of its argument, and a half rounds upwards |
| JsText.TrimStartSpec | src/App.js:67 | cutting leading whitespace keeps a suffix of the text that does not start with whitespace, and everything cut is whitespace |
| JsText.TrimEndSpec | src/App.js:67 | cutting trailing whitespace keeps a prefix of the text that does not end with whitespace, and everything cut is whitespace |
| JsText.TrimSpec | src/App.js:67 | `trim` gives a slice of the input that is whitespace-free at both ends, with only whitespace cut away before and after it |
| JsText.TrimIdempotent | src/App.js:67 | trimming a trimmed value changes nothing, and a value without surrounding whitespace is its own trim |
| JsText.KeepNumeric | src/App.js:129 | the strip never lengthens the text |
| JsText.KeepNumericIsNumeric | src/App.js:129 | the strip leaves only digits and dots |
| JsText.KeepNumericIsSubsequence | src/App.js:129 | the stripped text is the input with characters deleted, order kept |
| JsText.KeepNumericCounts | src/App.js:129 | every digit and dot survives the strip as often as it occurs, and nothing else survives |
| JsText.KeepNumericAppend | src/App.js:129 | stripping a concatenation concatenates the stripped parts |
| JsText.KeepNumericFixpoint | src/App.js:129 | text is unchanged by the strip exactly when it is all digits and dots |
| JsText.KeepNumericIdempotent | src/App.js:71 | stripping twice is stripping once |
| JsText.NatTextRoundTrip | src/App.js:109 | the template-literal rendering of a whole number is non-empty, all digits, has no leading zero and reads back as the number |
| JsText.ParseFloatNatText | src/App.js:69 | `parseFloat` reads a rendered whole number back when the next character cannot continue a number (not a digit, `.`, `e` or `E`), such as `%` |
| JsText.ParseFloatOfNumericNonNegative | src/App.js:71 | `parseFloat` of a digit/dot string is NaN or non-negative |
| JsText.NumberAgreesWithParseFloat | src/App.js:130 | where `Number` accepts a non-empty digit/dot string, `parseFloat` reads the same value |
| JsText.NumericToNumberNonNegative | src/App.js:130 | `Number` never reads a negative value from a digit/dot string |
| JsText.TwoDotsIsNaN | src/App.js:130 | a digit/dot string with two or more dots is NaN to `Number` |
| JsText.NumericToNumberNatText | src/App.js:130 | `Number` reads a rendered whole number back |
| JsText.ZeroDigitsNumber | src/App.js:130 | `Number` of a digit/dot string whose digits are all `0` (`"000"`, `"0.0"`, `"."`) is 0 or NaN |
| JsText.KeepNumericNoNonZeroDigit | src/App.js:129 | the strip never brings in a digit other than `0` where the text had none |
| Referral.FromName | src/App.js:167-175 | a select value maps to a lead source only when it is that source's table key |
| Referral.NamesRoundTrip | src/App.js:173-175 | every table key selects its own source; keys are pairwise distinct; the select lists every source; the empty option selects none |
| Referral.ReferralRate | src/App.js:90-97 | the resolved referral rate always lies between 0 and 1 |
| Referral.ReferralRateIsTableEntry | src/App.js:90-97 | calling the Zillow.com entry directly gives what the generic table dispatch gives, for every source and price |
| Referral.RateTable | src/App.js:43-55 | each constant entry's rate, "Other" always 0, and Zillow.com between 30% and 40% |
| Referral.FeeFreeSources | src/App.js:43-55 | the rate is zero exactly for SOI, Listing.com, EZHomesearch.com, Other and Personal Deal |
| Referral.ZillowTiers | src/App.js:45 | the Zillow.com tiers, each boundary falling on the side its comparison puts it |
| Referral.ZillowMonotone | src/App.js:45 | a dearer house never lowers the Zillow.com rate |
| Splits.SoiSplitMonotone | src/App.js:57-64 | the SOI split grows with tenure, from 50% to 70% |
| Splits.AgentSplit | src/App.js:101-103 | the agent's split is between one half and all |
| Splits.AgentSplitPolicy | src/App.js:101-103 | only a personal deal gets 100%; SOI follows the tenure table; every other source gets 50% whatever the tenure |
| Splits.LabelRoundTrip | src/App.js:109 | a label built from two whole percentages reads back as those two percentages |
| Splits.WholePercentLabel | src/App.js:109 | a split of exactly k percent rounds to k and is labelled `k/(100-k)` |
| Splits.AgentSplitLabel | src/App.js:109 | every split the calculation picks is labelled with two whole percentages that add up to 100, the agent's between 50 and 100 |
| CommissionInput.FlatAmount | src/App.js:71 | a flat commission is never negative, and is 0 whenever `parseFloat` finds no number in the kept digits and dots |
| CommissionInput.NoDigitsReadsZero | src/App.js:71 | a flat commission text with no digit in it (a bare `$`, a lone dot) is 0 |
| CommissionInput.ParseCommission | src/App.js:66-73 | a trimmed value ending in `%` gives that percentage of the price, or NaN exactly when `parseFloat` finds no number at the start of the trimmed text, after leading whitespace and an optional sign; any other value gives a finite, non-negative flat amount |
| CommissionInput.TrimPadded | src/App.js:67 | whitespace around a value with non-space ends is exactly what `trim` removes |
| CommissionInput.PercentOfPrice | src/App.js:67-69 | `n%`, padded with any whitespace, is n percent of the price |
| CommissionInput.BarePercentIsNaN | src/App.js:68-69 | a `%` with no number in front of it gives NaN, whatever the price |
| CommissionInput.KeepNumericIgnoresTrim | src/App.js:67-71 | stripping the trimmed value gives what stripping the raw value gives |
| CommissionInput.FlatIgnoresFormatting | src/App.js:70-71 | a flat commission depends only on the digits and dots typed, not on dollar signs, commas, spaces or the price |
| CommissionInput.FlatWholeAmount | src/App.js:70-71 | a flat commission whose digits spell a whole number is that number, whatever the price |
| CommissionInput.PriceFromText | src/App.js:128-130 | the price read from the field is NaN or non-negative |
| CommissionInput.PriceFieldReading | src/App.js:128-130 | a blank field reads 0; two dots read NaN; formatted whole numbers read as themselves; any accepted value agrees with `parseFloat` |
| CommissionInput.ZeroPriceText | src/App.js:128-130 | a price field whose digits, if any, are all `0` (`"000"`, `"$0.00"`, `"."`) reads 0 or NaN |
| Scenarios.StripThousands | src/App.js:129 | the strip drops a dollar sign and a thousands comma and keeps the digits |
| Scenarios.NineThousandFlat | src/App.js:70-71 | `"$9,000"` is a flat 9,000 whatever the price |
| Engine.TenureFromKey | src/App.js:190-196 | only the six tenure option values select a tenure, each the one whose rendering it is |
| Engine.MissingFields | src/App.js:76-80 | a field is reported exactly when it is missing, each once, in the form's order |
| Engine.Settle | src/App.js:99-108 | a NaN total commission makes the amount after referral, the agent gross and net income NaN |
| Engine.Calculate | src/App.js:90-97 | the breakdown's referral rate lies between 0 and 1 |
| Engine.Compute | src/App.js:75-87 | the missing fields are reported exactly when there are some; a breakdown only comes with a positive price and all three choices made |
| EngineLaws.CalculatesIffComplete | src/App.js:76-87 | a breakdown is computed exactly when the price is positive and the source, tenure and cap answer are all chosen, `false` counting as chosen |
| EngineLaws.CompleteDealCalculates | src/App.js:82-99 | a complete deal is calculated on its own fields, whatever the commission text |
| EngineLaws.BlankFormReportsEverything | src/App.js:76-80 | a blank form reports all four fields, in order, under the form's names |
| EngineLaws.PriceFieldMissing | src/App.js:77 | a typed price with no digits, with only `0` digits, with two dots, or spelling 0 counts as not entered; any other whole number does not |
| EngineLaws.FormPriceReported | src/App.js:77 | the form reports the price exactly when the typed text reads as zero, below zero or NaN |
| EngineLaws.FormSourceReported | src/App.js:78 | the form reports the source exactly when its select value names none of the eleven sources |
| EngineLaws.FormMissingFields | src/App.js:76-80 | what the form's widgets leave missing: a source select value that names no source, a tenure outside "1".."6", no cap radio chosen, a price field with no digits at all, with only `0` digits (`"000"`, `"0.0"`, a lone dot), with two dots, or spelling the whole number 0; never the commission text |
| EngineLaws.NaNPriceAloneIsReported | src/App.js:77-80 | a NaN price is reported as missing, and nothing else is when the rest is filled in (a `false` cap answer included) |
| EngineLaws.AfterReferralBounds | src/App.js:100 | the amount after the referral fee is the commission less the fee, between 0 and the whole commission |
| EngineLaws.AgentGrossBounds | src/App.js:101-105 | the agent's gross is between half and all of the amount after referral |
| EngineLaws.DeductionLaw | src/App.js:106-107 | a brokerage deduction is 0 once capped; otherwise it is the smaller of the rate's share and the cap, and NaN stays NaN |
| EngineLaws.KwDeductions | src/App.js:106-107 | the brokerage commission is 30% of the gross up to 5,000 and the royalty 6% up to 3,000; both are 0 once capped |
| EngineLaws.NetIncomeBounds | src/App.js:106-108 | net income is the gross less both deductions, keeps at least 64% of a non-negative gross, and is all of it once capped |
| EngineLaws.CalculatedAmountsBounded | src/App.js:75-108 | every complete deal is calculated, and for a non-negative commission its breakdown keeps 0 <= after referral <= commission, half of that <= agent gross <= all of it, and 64% of the gross <= net income <= the gross |
| EngineLaws.CommissionIsAccountedFor | src/App.js:99-108 | the total commission splits exactly into referral fee, brokerage split, brokerage commission, royalty and net income |
| EngineLaws.PersonalDealCappedKeepsAll | src/App.js:101-109 | a capped personal deal pays no referral, is labelled `100/0`, and the agent nets the whole commission |
| EngineLaws.FullSplitLabel | src/App.js:109 | the full split is labelled `100/0` |
| Scenarios.SoiThirdYearCapped | src/App.js:75-121 | `$300,000`, `3%`, SOI, third year, capped: 9,000 commission, split 60/40, 5,400 net |
| Scenarios.ZillowMiddleTierUncapped | src/App.js:75-121 | `$200,000`, `3%`, Zillow.com, not capped: 35% referral, 50/50 split, 585 and 117 to the brokerage, 1,248 net |
| Scenarios.FlatMarketVipCapped | src/App.js:75-121 | `$500,000`, flat `$9,000`, MarketVIP, capped: 30% referral, 50/50 split, 3,150 net |
| Scenarios.PersonalDealHitsBothCaps | src/App.js:75-121 | `2000000`, `3%`, personal deal, not capped: both deductions stop at their caps (5,000 and 3,000), 52,000 net |

## Left out

- Rendering, focus handling (`handleKeyDown`), the shake animation and its
  `setTimeout`, and the React state hooks: these are user-interface plumbing. The
  model takes the form's values as the arguments of `Compute`.
- `handlePriceBlur` and every `Intl.NumberFormat` / `toFixed` display formatting:
  they only change what is shown, never the numbers the calculation uses.
- The optional "Suggested Tax Set-Aside (20%)" line: it is a display of
  `netIncome * 0.2` and is not part of the calculation.
- IEEE-754 double arithmetic: amounts are exact reals, so rounding error,
  overflow to `Infinity` and `-0` are not modelled. For example, `Math.round` of
  a split times 100 is exact here, and a price typed with 309 or more digits is a
  huge finite number here, where `Number` gives `Infinity` and the calculation
  goes on with it.
- CommissionInput.ParseCommission: the `Infinity` spelling that `parseFloat` also
  accepts is not modelled, so a text such as `"Infinity%"` reads as NaN here where
  the code would give Infinity. The form never supplies such a text, because the
  commission stays `"3%"` (src/App.js:7).
- Engine.TenureFromKey: only the values the tenure select can submit are
  modelled. Any other string selects no tenure, while the code would look it up in
  the SOI table and get `undefined`.
- Referral.FromName: only the values the lead-source select can submit are
  modelled. Any other string selects no source, while the code would look it up in
  the referral table and get `undefined`.
- CommissionInput.PriceFromText: `Number` is modelled only on digit/dot strings.
  That is all the price field hands it after the strip.

=== FILE: commission_input.dfy ===
/**
  How the calculator reads its commission text (a percentage of the contract
  price, or a flat dollar amount; the form as written always holds `"3%"`, and
  any text is taken here) and the contract-price field (whatever is typed,
  stripped to digits and dots).
 */
module CommissionInput {
  import opened Values
  import opened JsText

  /** The flat-amount reading: digits and dots only, `parseFloat`, and 0 when that gives NaN or 0. */
  function FlatAmount(value: string): (r: real)
    ensures r >= 0.0
    ensures ParseFloat(KeepNumeric(value)).NaN? ==> r == 0.0
  {
    var digits := KeepNumeric(value);
    KeepNumericIsNumeric(value);
    ParseFloatOfNumericNonNegative(digits);
    match ParseFloat(digits)
    case NaN => 0.0
    case Finite(v) => v
  }

  /** `price * (pct / 100)`: `pct` percent of the price. */
  function PercentOf(price: real, pct: real): real
  {
    price * (pct / 100.0)
  }

  /**
    The total commission a commission text yields on a contract price: a trimmed
    value ending in `%` is that percentage of the price (NaN exactly when `parseFloat`
    finds no number at the start of the trimmed text, after leading whitespace and an
    optional sign); any other value is a flat amount, which is never NaN and never
    negative.
   */
  function ParseCommission(input: string, price: real): (r: Number)
    ensures !EndsWith(Trim(input), "%") ==> r.Finite? && r.v >= 0.0
    ensures EndsWith(Trim(input), "%") ==>
      (r.NaN? <==> ParseFloat(Trim(input)).NaN?)
      && (r.Finite? ==> r.v == PercentOf(price, ParseFloat(Trim(input)).v))
  {
    var value := Trim(input);
    if EndsWith(value, "%") then
      match ParseFloat(value)
      case NaN => NaN
      case Finite(pct) => Finite(PercentOf(price, pct))
    else Finite(FlatAmount(value))
  }

  /** Leading whitespace in front of a string that starts with a non-space is exactly what `TrimStart` removes. */
  lemma {:induction false} TrimStartPadded(lead: string, x: string)
    requires AllSpaces(lead)
    requires x == [] || !IsSpace(x[0])
    ensures TrimStart(lead + x) == x
  {
    if lead != [] {
      assert (lead + x)[1..] == lead[1..] + x;
      TrimStartPadded(lead[1..], x);
    } else {
      assert lead + x == x;
    }
  }

  /** Trailing whitespace after a string that ends with a non-space is exactly what `TrimEnd` removes. */
  lemma {:induction false} TrimEndPadded(x: string, trail: string)
    requires AllSpaces(trail)
    requires x == [] || !IsSpace(x[|x| - 1])
    ensures TrimEnd(x + trail) == x
  {
    if trail != [] {
      assert (x + trail)[..|x + trail| - 1] == x + trail[..|trail| - 1];
      TrimEndPadded(x, trail[..|trail| - 1]);
    } else {
      assert x + trail == x;
    }
  }

  /** Whitespace around a string with non-space ends is exactly what `trim` removes. */
  lemma TrimPadded(lead: string, x: string, trail: string)
    requires AllSpaces(lead) && AllSpaces(trail)
    requires x != [] && !IsSpace(x[0]) && !IsSpace(x[|x| - 1])
    ensures Trim(lead + x + trail) == x
  {
    assert lead + x + trail == lead + (x + trail);
    TrimStartPadded(lead, x + trail);
    TrimEndPadded(x, trail);
  }

  /** Whitespace around a rendered whole percentage is ignored and the commission is that share of the price. */
  lemma PercentOfPrice(n: nat, lead: string, trail: string, price: real)
    requires AllSpaces(lead) && AllSpaces(trail)
    ensures ParseCommission(lead + (NatText(n) + "%") + trail, price) == Finite(PercentOf(price, n as real))
  {
    var core := NatText(n) + "%";
    RenderedPercent(n);
    TrimPadded(lead, core, trail);
  }

  /** A rendered whole number followed by `%` has no whitespace at either end, ends in `%`, and reads as the number. */
  lemma RenderedPercent(n: nat)
    ensures var core := NatText(n) + "%";
      && core != [] && !IsSpace(core[0]) && !IsSpace(core[|core| - 1])
      && EndsWith(core, "%")
      && ParseFloat(core) == Finite(n as real)
  {
    var core := NatText(n) + "%";
    NatTextRoundTrip(n);
    assert core[0] == NatText(n)[0];
    assert IsDigit(core[0]);
    assert core[|core| - 1..] == "%";
    ParseFloatNatText(n, "%");
  }

  /** A `%` with no number in front of it yields NaN, whatever the price. */
  lemma BarePercentIsNaN(price: real)
    ensures ParseCommission("%", price).NaN?
  {
    BarePercentText();
  }

  lemma BarePercentText()
    ensures Trim("%") == "%" && EndsWith("%", "%")
    ensures ParseFloat("%") == NaN
  {
    assert TrimStart("%") == "%";
    assert TrimEnd("%") == "%";
    assert LeadingDigits("%") == 0;
  }

  /** Stripping to digits and dots after trimming gives what stripping alone gives. */
  lemma KeepNumericIgnoresTrim(input: string)
    ensures KeepNumeric(Trim(input)) == KeepNumeric(input)
  {
    KeepNumericIgnoresTrimStart(input);
    KeepNumericIgnoresTrimEnd(TrimStart(input));
  }

  lemma {:induction false} KeepNumericIgnoresTrimStart(s: string)
    ensures KeepNumeric(TrimStart(s)) == KeepNumeric(s)
  {
    if s != [] && IsSpace(s[0]) {
      KeepNumericIgnoresTrimStart(s[1..]);
      assert !IsNumericChar(s[0]);
    }
  }

  lemma {:induction false} KeepNumericIgnoresTrimEnd(s: string)
    ensures KeepNumeric(TrimEnd(s)) == KeepNumeric(s)
  {
    if s != [] && IsSpace(s[|s| - 1]) {
      var init := s[..|s| - 1];
      KeepNumericIgnoresTrimEnd(init);
      assert s == init + [s[|s| - 1]];
      KeepNumericDropsSpace(init, s[|s| - 1]);
    }
  }

  lemma KeepNumericDropsSpace(init: string, c: char)
    requires IsSpace(c)
    ensures KeepNumeric(init + [c]) == KeepNumeric(init)
  {
    KeepNumericAppend(init, [c]);
    assert KeepNumeric([c]) == [];
    assert KeepNumeric(init) + [] == KeepNumeric(init);
  }

  /**
    A flat commission depends only on the digits and dots typed: dollar signs, commas,
    spaces and other formatting are ignored, and the price plays no part.
   */
  lemma FlatIgnoresFormatting(input: string, price: real, otherPrice: real)
    requires !EndsWith(Trim(input), "%")
    ensures ParseCommission(input, price) == ParseCommission(KeepNumeric(input), otherPrice)
    ensures ParseCommission(input, price) == Finite(FlatAmount(input))
  {
    var digits := KeepNumeric(input);
    FlatReading(input, price);
    KeepNumericIsNumeric(input);
    NumericIsTrimmed(digits);
    FlatReading(digits, otherPrice);
    KeepNumericIdempotent(input);
    SameDigitsSameAmount(digits, input);
  }

  /** A text with no digit in it (a bare `$`, a lone dot, `N/A`) is a flat 0. */
  lemma NoDigitsReadsZero(value: string)
    requires NoDigit(value)
    ensures FlatAmount(value) == 0.0
  {
    var digits := KeepNumeric(value);
    KeepNumericIsDots(value);
    if digits == [] {
      assert ParseFloat(digits) == UnsignedPrefix(digits);
    } else {
      UnsignedAtNumeric(digits);
      assert LeadingDigits(digits) == 0;
      assert digits[1..] == [] || digits[1..][0] == '.';
      assert LeadingDigits(digits[1..]) == 0;
      assert UnsignedPrefix(digits) == PointLiteral(digits, 0);
    }
  }

  /** The strip of a text with no digit keeps only dots. */
  lemma {:induction false} KeepNumericIsDots(value: string)
    requires NoDigit(value)
    ensures forall i :: 0 <= i < |KeepNumeric(value)| ==> KeepNumeric(value)[i] == '.'
  {
    if value != [] {
      KeepNumericIsDots(value[1..]);
      var head := if IsNumericChar(value[0]) then [value[0]] else [];
      assert KeepNumeric(value) == head + KeepNumeric(value[1..]);
      assert !IsDigit(value[0]);
    }
  }

  /** Without a trailing `%`, the commission is the flat amount of the text, trimmed or not. */
  lemma FlatReading(input: string, price: real)
    requires !EndsWith(Trim(input), "%")
    ensures ParseCommission(input, price) == Finite(FlatAmount(input))
  {
    KeepNumericIgnoresTrim(input);
    SameDigitsSameAmount(Trim(input), input);
  }

  lemma SameDigitsSameAmount(x: string, y: string)
    requires KeepNumeric(x) == KeepNumeric(y)
    ensures FlatAmount(x) == FlatAmount(y)
  {
  }

  /** A string of digits and dots has nothing to trim and does not end in `%`. */
  lemma NumericIsTrimmed(t: string)
    requires AllNumeric(t)
    ensures Trim(t) == t && !EndsWith(t, "%")
  {
    if t != [] {
      assert !IsSpace(t[0]) && !IsSpace(t[|t| - 1]);
      assert t[|t| - 1..] != "%";
    }
    TrimIdempotent(t);
  }

  /** A flat amount typed as a whole number with any formatting around its digits reads as that number. */
  lemma FlatWholeAmount(input: string, price: real, n: nat)
    requires !EndsWith(Trim(input), "%")
    requires KeepNumeric(input) == NatText(n)
    ensures ParseCommission(input, price) == Finite(n as real)
  {
    FlatReading(input, price);
    ParseFloatNatText(n, []);
    assert NatText(n) + [] == NatText(n);
  }

  /** `Number(raw)` after the price field's digit/dot strip. */
  function PriceFromText(text: string): (r: Number)
    ensures r.NaN? || r.v >= 0.0
  {
    NumericToNumberNonNegative(KeepNumeric(text));
    NumericToNumber(KeepNumeric(text))
  }

  /** The price field: a blank field is 0, two or more dots make it NaN, a typed whole number with any formatting reads as itself, and a value it accepts is the one `parseFloat` would read. */
  lemma PriceFieldReading(text: string)
    ensures KeepNumeric(text) == [] ==> PriceFromText(text) == Finite(0.0)
    ensures multiset(text)['.'] >= 2 ==> PriceFromText(text).NaN?
    ensures forall n: nat :: KeepNumeric(text) == NatText(n) ==> PriceFromText(text) == Finite(n as real)
    ensures KeepNumeric(text) != [] && PriceFromText(text).Finite? ==> PriceFromText(text) == ParseFloat(KeepNumeric(text))
  {
    var t := KeepNumeric(text);
    KeepNumericCounts(text);
    if multiset(text)['.'] >= 2 {
      assert multiset(t)['.'] == multiset(text)['.'];
      TwoDotsIsNaN(t);
    }
    forall n: nat | t == NatText(n)
      ensures PriceFromText(text) == Finite(n as real)
    {
      NumericToNumberNatText(n);
    }
    if t != [] && PriceFromText(text).Finite? {
      NumberAgreesWithParseFloat(t);
    }
  }

  /** A price field whose digits, if any, are all `0` (`"000"`, `"$0.00"`, `"."`, `"$"`) reads 0 or NaN. */
  lemma ZeroPriceText(text: string)
    requires NoNonZeroDigit(text)
    ensures PriceFromText(text) == Finite(0.0) || PriceFromText(text).NaN?
  {
    KeepNumericNoNonZeroDigit(text);
    ZeroDigitsNumber(KeepNumeric(text));
  }
}

=== FILE: engine.dfy ===
/**
  The commission calculation behind the calculator's "Calculate" button, lifted
  out of the form into one pure function: the deal's fields go in, and either the
  list of fields still missing or the commission breakdown comes out.

  Order of the calculation: referral rate, total commission, amount after the
  referral fee, agent split, agent gross, brokerage commission and royalty
  (nothing once the agent has capped), net income, split label.
 */
module Engine {
  import opened Values
  import opened JsText
  import opened Referral
  import opened Splits
  import opened CommissionInput

  // ---------------------------------------------------------------- brokerage constants

  /** Share of the agent's gross the brokerage takes until the agent caps. */
  const KwCommissionRate: real := 0.3
  /** Most the brokerage commission takes from one deal. */
  const KwCommissionCap: real := 5000.0
  /** Share of the agent's gross paid as royalty until the agent caps. */
  const KwRoyaltyRate: real := 0.06
  /** Most the royalty takes from one deal. */
  const KwRoyaltyCap: real := 3000.0

  // ---------------------------------------------------------------- inputs and outputs

  /** The four fields the form insists on, in the order it reports them. */
  datatype Field = ContractPrice | LeadSourceField | YearsWithCompany | CapStatus

  /** The name the form shows for a missing field. */
  function FieldName(f: Field): string
  {
    match f
    case ContractPrice => "Contract Price"
    case LeadSourceField => "Lead Source"
    case YearsWithCompany => "Years with Company"
    case CapStatus => "KW Cap Status"
  }

  /** Position of a field in the reporting order. */
  function Rank(f: Field): nat
  {
    match f
    case ContractPrice => 0
    case LeadSourceField => 1
    case YearsWithCompany => 2
    case CapStatus => 3
  }

  /**
    The deal as the form holds it when "Calculate" is pressed: the contract price
    (a number, possibly NaN), the commission text, the chosen lead source and
    tenure (None while the empty option is selected), and the cap answer (None
    until one of the two radio buttons is chosen).
   */
  datatype Deal = Deal(
    price: Number,
    commission: string,
    source: Option<LeadSource>,
    years: Option<Tenure>,
    capped: Option<bool>)

  /** The tenure a select value names: "1" to "6"; None for the empty "Select tenure" value. */
  function TenureFromKey(key: string): (r: Option<Tenure>)
    ensures r.Some? <==> key in {"1", "2", "3", "4", "5", "6"}
    ensures r.Some? ==> key == NatText(r.value)
  {
    if key == "1" then Some(1)
    else if key == "2" then Some(2)
    else if key == "3" then Some(3)
    else if key == "4" then Some(4)
    else if key == "5" then Some(5)
    else if key == "6" then Some(6)
    else None
  }

  /** The deal the form's widgets describe: typed price text, the commission text (always `"3%"` in the form as written, any text here), the two select values and the cap radio state. */
  function DealFromForm(priceText: string, commission: string, sourceKey: string, yearsKey: string, capped: Option<bool>): Deal
  {
    Deal(PriceFromText(priceText), commission, FromName(sourceKey), TenureFromKey(yearsKey), capped)
  }

  /** What the summary shows after a successful calculation. */
  datatype Breakdown = Breakdown(
    totalCommission: Number,
    referralFeeRate: real,
    afterReferral: Number,
    agentGross: Number,
    kwCommission: Number,
    kwRoyalty: Number,
    netIncome: Number,
    splitLabel: string)

  /** Either every field was present and a breakdown was computed, or the fields still missing, in reporting order. */
  datatype Outcome = Calculated(breakdown: Breakdown) | MissingInput(fields: seq<Field>)

  // ---------------------------------------------------------------- validation

  /** A price of zero, below zero, or NaN counts as not entered. */
  predicate PriceMissing(price: Number)
  {
    price.NaN? || price.v <= 0.0
  }

  predicate IsMissing(d: Deal, f: Field)
  {
    match f
    case ContractPrice => PriceMissing(d.price)
    case LeadSourceField => d.source.None?
    case YearsWithCompany => d.years.None?
    case CapStatus => d.capped.None?
  }

  /** Every missing field, each once, in reporting order: the whole list, not just the first. */
  function MissingFields(d: Deal): (m: seq<Field>)
    ensures forall f: Field :: f in m <==> IsMissing(d, f)
    ensures forall i, j :: 0 <= i < j < |m| ==> Rank(m[i]) < Rank(m[j])
  {
    (if PriceMissing(d.price) then [ContractPrice] else [])
    + (if d.source.None? then [LeadSourceField] else [])
    + (if d.years.None? then [YearsWithCompany] else [])
    + (if d.capped.None? then [CapStatus] else [])
  }

  // ---------------------------------------------------------------- the calculation

  /** A brokerage deduction from the agent's gross: nothing once capped, else the rate, but never more than the cap. */
  function Deduction(gross: Number, capped: bool, rate: real, cap: real): Number
  {
    if capped then Finite(0.0) else MinWith(Scale(gross, rate), cap)
  }

  /**
    The arithmetic of the calculation, from the total commission, the referral rate,
    the agent split and the cap answer to the breakdown; the split's label is worked
    out on its own and carried into the breakdown as given.
   */
  function Settle(total: Number, rate: real, split: real, capped: bool, splitLabel: string): (b: Breakdown)
    ensures b.totalCommission.NaN? ==> b.afterReferral.NaN? && b.agentGross.NaN? && b.netIncome.NaN?
  {
    var after := Scale(total, 1.0 - rate);
    var gross := Scale(after, split);
    var kwCommission := Deduction(gross, capped, KwCommissionRate, KwCommissionCap);
    var kwRoyalty := Deduction(gross, capped, KwRoyaltyRate, KwRoyaltyCap);
    var net := Minus(Minus(gross, kwCommission), kwRoyalty);
    Breakdown(total, rate, after, gross, kwCommission, kwRoyalty, net, splitLabel)
  }

  /** The calculation, for a deal with every field present: resolve the rate, read the commission, pick the split, settle. */
  function Calculate(price: real, commission: string, src: LeadSource, years: Tenure, capped: bool): (b: Breakdown)
    ensures 0.0 <= b.referralFeeRate <= 1.0
  {
    var split := AgentSplit(src, years);
    Settle(ParseCommission(commission, price), ReferralRate(src, price), split, capped, SplitLabel(split))
  }

  /** The "Calculate" action: report the missing fields if there are any, otherwise compute the breakdown. */
  function Compute(d: Deal): (o: Outcome)
    ensures o.MissingInput? <==> MissingFields(d) != []
    ensures o.MissingInput? ==> o.fields == MissingFields(d)
    ensures o.Calculated? ==> d.price.Finite? && d.price.v > 0.0 && d.source.Some? && d.years.Some? && d.capped.Some?
  {
    var missing := MissingFields(d);
    if missing != [] then MissingInput(missing)
    else
      assert !IsMissing(d, ContractPrice) && !IsMissing(d, LeadSourceField);
      assert !IsMissing(d, YearsWithCompany) && !IsMissing(d, CapStatus);
      Calculated(Calculate(d.price.v, d.commission, d.source.value, d.years.value, d.capped.value))
  }
}

=== FILE: engine_laws.dfy ===
/**
  What the commission calculation guarantees: when it computes at all, how each
  amount is bounded by the one before it, what the brokerage may deduct, and
  that every dollar of the commission is accounted for.
 */
module EngineLaws {
  import opened Values
  import opened JsText
  import opened Referral
  import opened Splits
  import opened CommissionInput
  import opened Engine

  // ---------------------------------------------------------------- validation

  /** A breakdown is computed exactly when the price is a positive number and the three choices are made; `false` is a choice. */
  lemma CalculatesIffComplete(d: Deal)
    ensures Compute(d).Calculated? <==>
      d.price.Finite? && d.price.v > 0.0 && d.source.Some? && d.years.Some? && d.capped.Some?
  {
    if d.price.Finite? && d.price.v > 0.0 && d.source.Some? && d.years.Some? && d.capped.Some? {
      assert MissingFields(d) == [];
    }
  }

  /** A complete deal yields the calculation on its fields, whatever the commission text says. */
  lemma CompleteDealCalculates(price: real, commission: string, src: LeadSource, years: Tenure, capped: bool)
    requires price > 0.0
    ensures Compute(Deal(Finite(price), commission, Some(src), Some(years), Some(capped)))
      == Calculated(Calculate(price, commission, src, years, capped))
  {
    assert MissingFields(Deal(Finite(price), commission, Some(src), Some(years), Some(capped))) == [];
  }

  /** A blank form reports all four fields, in the form's order and with the form's names. */
  lemma BlankFormReportsEverything(commission: string)
    ensures Compute(DealFromForm("", commission, "", "", None)) == MissingInput([ContractPrice, LeadSourceField, YearsWithCompany, CapStatus])
    ensures FieldName(ContractPrice) == "Contract Price" && FieldName(LeadSourceField) == "Lead Source"
    ensures FieldName(YearsWithCompany) == "Years with Company" && FieldName(CapStatus) == "KW Cap Status"
  {
    var d := DealFromForm("", commission, "", "", None);
    assert KeepNumeric("") == [];
    assert d.price == Finite(0.0);
  }

  /** When the typed price counts as not entered: no digits or digits that are all `0`, two dots, or a whole number that is 0. */
  lemma PriceFieldMissing(priceText: string)
    ensures var p := PriceFromText(priceText);
      && (KeepNumeric(priceText) == [] ==> PriceMissing(p))
      && (multiset(priceText)['.'] >= 2 ==> PriceMissing(p))
      && (NoDigit(priceText) ==> PriceMissing(p))
      && (NoNonZeroDigit(priceText) ==> PriceMissing(p))
      && (forall n: nat :: KeepNumeric(priceText) == NatText(n) ==> (PriceMissing(p) <==> n == 0))
  {
    PriceFieldReading(priceText);
    if NoNonZeroDigit(priceText) {
      ZeroPriceText(priceText);
    }
  }

  /** The price is reported exactly when the typed text reads as not entered (see `PriceFieldMissing`). */
  lemma FormPriceReported(priceText: string, commission: string, sourceKey: string, yearsKey: string, capped: Option<bool>)
    ensures var m := MissingFields(DealFromForm(priceText, commission, sourceKey, yearsKey, capped));
      ContractPrice in m <==> PriceMissing(PriceFromText(priceText))
  {
    var d := DealFromForm(priceText, commission, sourceKey, yearsKey, capped);
    assert IsMissing(d, ContractPrice) == PriceMissing(d.price);
  }

  /** The source is reported exactly when its select value names no source. */
  lemma FormSourceReported(priceText: string, commission: string, sourceKey: string, yearsKey: string, capped: Option<bool>)
    ensures var m := MissingFields(DealFromForm(priceText, commission, sourceKey, yearsKey, capped));
      LeadSourceField in m <==> forall src: LeadSource :: Name(src) != sourceKey
  {
    var d := DealFromForm(priceText, commission, sourceKey, yearsKey, capped);
    assert IsMissing(d, LeadSourceField) == d.source.None?;
    if FromName(sourceKey).None? {
      forall src: LeadSource ensures Name(src) != sourceKey {
        NamesRoundTrip(src);
      }
    }
  }

  /**
    Which widgets the form reports as missing: the source when its select value names
    no source, the tenure when it is not one of "1".."6", the cap status while no radio
    is chosen, and the price when its digits, if any, are all `0`, when it has two dots,
    or when its digits and dots spell the whole number 0; the commission text plays no part.
   */
  lemma FormMissingFields(priceText: string, commission: string, sourceKey: string, yearsKey: string, capped: Option<bool>)
    ensures var m := MissingFields(DealFromForm(priceText, commission, sourceKey, yearsKey, capped));
      && (LeadSourceField in m <==> forall src: LeadSource :: Name(src) != sourceKey)
      && (YearsWithCompany in m <==> yearsKey !in {"1", "2", "3", "4", "5", "6"})
      && (CapStatus in m <==> capped.None?)
      && (KeepNumeric(priceText) == [] ==> ContractPrice in m)
      && (multiset(priceText)['.'] >= 2 ==> ContractPrice in m)
      && (NoDigit(priceText) ==> ContractPrice in m)
      && (NoNonZeroDigit(priceText) ==> ContractPrice in m)
      && (forall n: nat :: KeepNumeric(priceText) == NatText(n) ==> (ContractPrice in m <==> n == 0))
    ensures forall other: string ::
      MissingFields(DealFromForm(priceText, other, sourceKey, yearsKey, capped))
        == MissingFields(DealFromForm(priceText, commission, sourceKey, yearsKey, capped))
  {
    FormPriceReported(priceText, commission, sourceKey, yearsKey, capped);
    PriceFieldMissing(priceText);
    FormSourceReported(priceText, commission, sourceKey, yearsKey, capped);
  }

  /** Only the missing fields are reported: a NaN price alone with "not capped" chosen reports just the price. */
  lemma NaNPriceAloneIsReported(commission: string, src: LeadSource, years: Tenure)
    ensures Compute(Deal(NaN, commission, Some(src), Some(years), Some(false))) == MissingInput([ContractPrice])
  {
  }

  // ---------------------------------------------------------------- arithmetic helpers

  lemma ScaleDown(x: real, k: real)
    requires x >= 0.0 && 0.0 <= k <= 1.0
    ensures 0.0 <= x * k <= x
  {
    assert x * k <= x * 1.0;
  }

  lemma ScaleBetweenHalfAndAll(x: Number, k: real)
    requires 0.5 <= k <= 1.0
    ensures x.Finite? ==> Scale(x, k).Finite? && (x.v >= 0.0 ==> 0.5 * x.v <= Scale(x, k).v <= x.v)
  {
    if x.Finite? && x.v >= 0.0 {
      var a := x.v;
      assert a * k <= a * 1.0;
      assert a * 0.5 <= a * k;
      assert Scale(x, k).v == a * k;
    }
  }

  // ---------------------------------------------------------------- the amounts

  /** The referral fee only ever takes part of a non-negative commission. */
  lemma AfterReferralBounds(total: Number, rate: real, split: real, capped: bool, text: string)
    requires 0.0 <= rate <= 1.0
    requires total.Finite?
    ensures var b := Settle(total, rate, split, capped, text);
      && b.afterReferral == Finite(total.v * (1.0 - rate))
      && (total.v >= 0.0 ==> 0.0 <= b.afterReferral.v <= total.v)
  {
    if total.v >= 0.0 {
      ScaleDown(total.v, 1.0 - rate);
    }
  }

  /** The agent keeps between half and all of what is left after the referral fee. */
  lemma AgentGrossBounds(total: Number, rate: real, split: real, capped: bool, text: string)
    requires 0.5 <= split <= 1.0
    ensures var b := Settle(total, rate, split, capped, text);
      b.afterReferral.Finite? ==>
        && b.agentGross.Finite?
        && (b.afterReferral.v >= 0.0 ==> 0.5 * b.afterReferral.v <= b.agentGross.v <= b.afterReferral.v)
  {
    var b := Settle(total, rate, split, capped, text);
    assert b.agentGross == Scale(b.afterReferral, split);
    ScaleBetweenHalfAndAll(b.afterReferral, split);
  }

  /**
    A brokerage deduction is zero once capped; otherwise it is the smaller of the
    rate's share of the gross and the cap, so it exceeds neither; NaN gross stays NaN.
   */
  lemma DeductionLaw(gross: Number, capped: bool, rate: real, cap: real)
    ensures capped ==> Deduction(gross, capped, rate, cap) == Finite(0.0)
    ensures !capped && gross.NaN? ==> Deduction(gross, capped, rate, cap).NaN?
    ensures !capped && gross.Finite? ==>
      var r := Deduction(gross, capped, rate, cap).v;
      && Deduction(gross, capped, rate, cap).Finite?
      && r <= gross.v * rate && r <= cap
      && (r == gross.v * rate || r == cap)
  {
  }

  /** The brokerage's two deductions: nothing once capped, else 30% up to 5,000 and 6% up to 3,000. */
  lemma KwDeductions(total: Number, rate: real, split: real, capped: bool, text: string)
    ensures var b := Settle(total, rate, split, capped, text);
      && (capped ==> b.kwCommission == Finite(0.0) && b.kwRoyalty == Finite(0.0))
      && (!capped && b.agentGross.Finite? ==>
            && b.kwCommission.Finite? && b.kwRoyalty.Finite?
            && b.kwCommission.v <= 0.3 * b.agentGross.v && b.kwCommission.v <= 5000.0
            && b.kwRoyalty.v <= 0.06 * b.agentGross.v && b.kwRoyalty.v <= 3000.0
            && (b.kwCommission.v == 0.3 * b.agentGross.v || b.kwCommission.v == 5000.0)
            && (b.kwRoyalty.v == 0.06 * b.agentGross.v || b.kwRoyalty.v == 3000.0))
  {
    var b := Settle(total, rate, split, capped, text);
    DeductionLaw(b.agentGross, capped, KwCommissionRate, KwCommissionCap);
    DeductionLaw(b.agentGross, capped, KwRoyaltyRate, KwRoyaltyCap);
  }

  /** Net income is the gross less both deductions; for a non-negative gross it keeps at least 64% of it and never more than all of it. */
  lemma NetIncomeBounds(total: Number, rate: real, split: real, capped: bool, text: string)
    requires total.Finite?
    ensures var b := Settle(total, rate, split, capped, text);
      var g := b.agentGross.v;
      && b.agentGross.Finite? && b.netIncome.Finite?
      && b.netIncome.v == g - b.kwCommission.v - b.kwRoyalty.v
      && (g >= 0.0 ==> 0.64 * g <= b.netIncome.v <= g)
      && (capped ==> b.netIncome.v == g)
  {
    KwDeductions(total, rate, split, capped, text);
  }

  /** Every dollar of a finite commission goes to the referrer, the brokerage's split, the brokerage commission, the royalty, or the agent. */
  lemma CommissionIsAccountedFor(total: Number, rate: real, split: real, capped: bool, text: string)
    requires total.Finite?
    ensures var b := Settle(total, rate, split, capped, text);
      var t := total.v;
      && b.netIncome.Finite?
      && t == t * rate + b.afterReferral.v * (1.0 - split) + b.kwCommission.v + b.kwRoyalty.v + b.netIncome.v
  {
    var b := Settle(total, rate, split, capped, text);
    var t := total.v;
    SettleSteps(total, rate, split, capped, text);
    var after, gross := b.afterReferral.v, b.agentGross.v;
    var c, r, net := b.kwCommission.v, b.kwRoyalty.v, b.netIncome.v;
    assert b.kwCommission.Finite? && b.kwRoyalty.Finite?;
    assert net == gross - c - r;
    Shares(total, rate);
    Shares(b.afterReferral, split);
  }

  /**
    A complete deal (exactly the deals the "Calculate" action computes, by
    `CalculatesIffComplete`) with a non-negative commission yields a breakdown that
    keeps its amounts in order: the amount after referral is at most the
    commission, the agent's gross is between half and all of that, and net income
    is between 64% and all of the gross.
   */
  lemma CalculatedAmountsBounded(d: Deal)
    requires d.price.Finite? && d.price.v > 0.0 && d.source.Some? && d.years.Some? && d.capped.Some?
    ensures Compute(d).Calculated?
    ensures var b := Compute(d).breakdown;
      b.totalCommission.Finite? && b.totalCommission.v >= 0.0 ==>
        && b.afterReferral.Finite? && b.agentGross.Finite? && b.netIncome.Finite?
        && 0.0 <= b.afterReferral.v <= b.totalCommission.v
        && 0.5 * b.afterReferral.v <= b.agentGross.v <= b.afterReferral.v
        && 0.64 * b.agentGross.v <= b.netIncome.v <= b.agentGross.v
  {
    CalculatesIffComplete(d);
    var price, src, years, capped := d.price.v, d.source.value, d.years.value, d.capped.value;
    CompleteDealCalculates(price, d.commission, src, years, capped);
    CalculateSettles(price, d.commission, src, years, capped);
    var total := ParseCommission(d.commission, price);
    var rate, split := ReferralRate(src, price), AgentSplit(src, years);
    if total.Finite? && total.v >= 0.0 {
      AfterReferralBounds(total, rate, split, capped, SplitLabel(split));
      AgentGrossBounds(total, rate, split, capped, SplitLabel(split));
      NetIncomeBounds(total, rate, split, capped, SplitLabel(split));
    }
  }

  /** The steps of the settlement, amount by amount. */
  lemma SettleSteps(total: Number, rate: real, split: real, capped: bool, text: string)
    ensures var b := Settle(total, rate, split, capped, text);
      && b.afterReferral == Scale(total, 1.0 - rate)
      && b.agentGross == Scale(b.afterReferral, split)
      && b.kwCommission == Deduction(b.agentGross, capped, KwCommissionRate, KwCommissionCap)
      && b.kwRoyalty == Deduction(b.agentGross, capped, KwRoyaltyRate, KwRoyaltyCap)
      && b.netIncome == Minus(Minus(b.agentGross, b.kwCommission), b.kwRoyalty)
  {
  }

  /** The `k` share and the `1 - k` share of a finite amount make up all of it. */
  lemma Shares(x: Number, k: real)
    requires x.Finite?
    ensures x.v * k + Scale(x, 1.0 - k).v == x.v
    ensures x.v * (1.0 - k) + Scale(x, k).v == x.v
  {
  }

  /** A personal deal, once capped, pays the agent the whole commission. */
  lemma PersonalDealCappedKeepsAll(price: real, commission: string, years: Tenure)
    ensures var b := Calculate(price, commission, PersonalDeal, years, true);
      && b.netIncome == b.totalCommission
      && b.referralFeeRate == 0.0
      && b.splitLabel == "100/0"
  {
    var total := ParseCommission(commission, price);
    CalculateSettles(price, commission, PersonalDeal, years, true);
    PersonalDealTerms(price, years);
    FullSplitLabel();
    assert Calculate(price, commission, PersonalDeal, years, true) == Settle(total, 0.0, 1.0, true, "100/0");
    CappedFullShareKeepsAll(total, "100/0");
  }

  /** A personal deal pays no referral fee and keeps the whole split. */
  lemma PersonalDealTerms(price: real, years: Tenure)
    ensures ReferralRate(PersonalDeal, price) == 0.0
    ensures AgentSplit(PersonalDeal, years) == 1.0
  {
    RateTable(price);
  }

  /** With no referral fee, the whole split and the cap reached, the net income is the total commission. */
  lemma CappedFullShareKeepsAll(total: Number, text: string)
    ensures Settle(total, 0.0, 1.0, true, text).netIncome == total
  {
  }

  lemma FullSplitLabel()
    ensures SplitLabel(1.0) == "100/0"
  {
    WholePercentLabel(1.0, 100);
    assert NatText(100) == "100";
    assert NatText(0) == "0";
  }

  /** The calculation, step by step: read the commission, look up the rate and the split, label the split, settle. */
  lemma CalculateSettles(price: real, commission: string, src: LeadSource, years: Tenure, capped: bool)
    ensures var split := AgentSplit(src, years);
      Calculate(price, commission, src, years, capped)
        == Settle(ParseCommission(commission, price), ReferralRate(src, price), split, capped, SplitLabel(split))
  {
  }
}

=== FILE: js_text.dfy ===
/**
  The string primitives the calculator leans on, as ECMAScript defines them:
  `String.prototype.trim`, the `/[^\d.]/g` strip, `parseFloat` (longest numeric
  prefix) and `Number(...)` applied to a string of digits and dots, plus the
  decimal rendering of a whole number that a template literal produces.
 */
module JsText {
  import opened Values

  // ---------------------------------------------------------------- characters

  /** `\d` without the `u` flag: the ASCII digits only. */
  predicate IsDigit(c: char) { '0' <= c <= '9' }

  /** The characters the `/[^\d.]/g` replacement keeps. */
  predicate IsNumericChar(c: char) { IsDigit(c) || c == '.' }

  /** WhiteSpace and LineTerminator of ECMAScript: what `trim` removes and `parseFloat` skips. */
  predicate IsSpace(c: char)
  {
    || c == '\t' || c == '\n' || c == '\U{000B}' || c == '\U{000C}' || c == '\r'
    || c == ' ' || c == '\U{00A0}' || c == '\U{1680}'
    || ('\U{2000}' <= c <= '\U{200A}')
    || c == '\U{2028}' || c == '\U{2029}' || c == '\U{202F}' || c == '\U{205F}'
    || c == '\U{3000}' || c == '\U{FEFF}'
  }

  predicate AllDigits(s: string) { forall i :: 0 <= i < |s| ==> IsDigit(s[i]) }

  predicate AllNumeric(s: string) { forall i :: 0 <= i < |s| ==> IsNumericChar(s[i]) }

  predicate AllSpaces(s: string) { forall i :: 0 <= i < |s| ==> IsSpace(s[i]) }

  function DigitValue(c: char): nat
  {
    if IsDigit(c) then (c as int - '0' as int) else 0
  }

  function DigitChar(d: nat): (c: char)
    requires d < 10
    ensures IsDigit(c) && DigitValue(c) == d
  {
    ('0' as int + d) as char
  }

  // ---------------------------------------------------------------- trim

  lemma SpacesCons(c: char, x: string)
    requires IsSpace(c) && AllSpaces(x)
    ensures AllSpaces([c] + x)
  {
  }

  lemma SpacesSnoc(x: string, c: char)
    requires AllSpaces(x) && IsSpace(c)
    ensures AllSpaces(x + [c])
  {
  }

  /** `s` without its leading whitespace. */
  function TrimStart(s: string): (r: string)
    ensures |r| <= |s|
  {
    if s != [] && IsSpace(s[0]) then TrimStart(s[1..]) else s
  }

  /** `TrimStart` keeps a suffix of `s` that does not start with whitespace, and what it cuts is all whitespace. */
  lemma {:induction false} TrimStartSpec(s: string)
    ensures var r := TrimStart(s);
      && r == s[|s| - |r|..]
      && AllSpaces(s[..|s| - |r|])
      && (r != [] ==> !IsSpace(r[0]))
  {
    if s != [] && IsSpace(s[0]) {
      TrimStartSpec(s[1..]);
      var r := TrimStart(s);
      assert s[..|s| - |r|] == [s[0]] + s[1..][..|s| - 1 - |r|];
      SpacesCons(s[0], s[1..][..|s| - 1 - |r|]);
    }
  }

  /** `s` without its trailing whitespace. */
  function TrimEnd(s: string): (r: string)
    ensures |r| <= |s|
  {
    if s != [] && IsSpace(s[|s| - 1]) then TrimEnd(s[..|s| - 1]) else s
  }

  /** `TrimEnd` keeps a prefix of `s` that does not end with whitespace, and what it cuts is all whitespace. */
  lemma {:induction false} TrimEndSpec(s: string)
    ensures var r := TrimEnd(s);
      && r == s[..|r|]
      && AllSpaces(s[|r|..])
      && (r != [] ==> !IsSpace(r[|r| - 1]))
  {
    if s != [] && IsSpace(s[|s| - 1]) {
      TrimEndSpec(s[..|s| - 1]);
      var r := TrimEnd(s);
      assert s[|r|..] == s[..|s| - 1][|r|..] + [s[|s| - 1]];
      SpacesSnoc(s[..|s| - 1][|r|..], s[|s| - 1]);
    }
  }

  /** `r` is what is left of `s` once whitespace is cut from both ends at offset `i`. */
  predicate TrimmedAt(s: string, r: string, i: nat)
  {
    && i + |r| <= |s|
    && r == s[i..i + |r|]
    && AllSpaces(s[..i])
    && AllSpaces(s[i + |r|..])
    && (r != [] ==> !IsSpace(r[0]) && !IsSpace(r[|r| - 1]))
  }

  /** `String.prototype.trim`: what is left once the leading whitespace, then the trailing whitespace, is cut. */
  function Trim(s: string): string
  {
    TrimEnd(TrimStart(s))
  }

  /** `trim` keeps the run of `s` between its leading and its trailing whitespace, and that run has no whitespace at either end. */
  lemma TrimSpec(s: string)
    ensures TrimmedAt(s, Trim(s), |s| - |TrimStart(s)|)
  {
    var t := TrimStart(s);
    TrimStartSpec(s);
    var i := |s| - |t|;
    var r := TrimEnd(t);
    TrimEndSpec(t);
    TrimmedFromParts(s, t, r, i);
  }

  /** Cutting whitespace before offset `i` and then after a prefix `r` of the rest leaves `r` trimmed at `i`. */
  lemma TrimmedFromParts(s: string, t: string, r: string, i: nat)
    requires i <= |s| && t == s[i..] && AllSpaces(s[..i]) && (t != [] ==> !IsSpace(t[0]))
    requires |r| <= |t| && r == t[..|r|] && AllSpaces(t[|r|..]) && (r != [] ==> !IsSpace(r[|r| - 1]))
    ensures TrimmedAt(s, r, i)
  {
    assert s[i..i + |r|] == t[..|r|];
    assert s[i + |r|..] == t[|r|..];
    if r != [] {
      assert r[0] == t[0];
    }
  }

  /** A string already free of surrounding whitespace is left alone, so `trim` is idempotent. */
  lemma TrimIdempotent(s: string)
    ensures Trim(Trim(s)) == Trim(s)
    ensures (s == [] || (!IsSpace(s[0]) && !IsSpace(s[|s| - 1]))) ==> Trim(s) == s
  {
    var t := Trim(s);
    TrimSpec(s);
    assert TrimStart(t) == t;
    assert TrimEnd(t) == t;
    if s == [] || (!IsSpace(s[0]) && !IsSpace(s[|s| - 1])) {
      assert TrimStart(s) == s;
      assert TrimEnd(s) == s;
    }
  }

  /** `s.endsWith(suffix)`. */
  predicate EndsWith(s: string, suffix: string)
  {
    |suffix| <= |s| && s[|s| - |suffix|..] == suffix
  }

  // ---------------------------------------------------------------- the digit/dot strip

  /** `s.replace(/[^\d.]/g, "")`: the digits and dots of `s`, in order. */
  function KeepNumeric(s: string): (r: string)
    ensures |r| <= |s|
  {
    if s == [] then []
    else (if IsNumericChar(s[0]) then [s[0]] else []) + KeepNumeric(s[1..])
  }

  /** What the strip keeps is digits and dots only. */
  lemma {:induction false} KeepNumericIsNumeric(s: string)
    ensures AllNumeric(KeepNumeric(s))
  {
    if s != [] {
      KeepNumericIsNumeric(s[1..]);
    }
  }

  /** `a` can be obtained from `b` by deleting characters. */
  predicate IsSubsequence(a: string, b: string)
    decreases |b|
  {
    || a == []
    || (b != [] && ((a[0] == b[0] && IsSubsequence(a[1..], b[1..])) || IsSubsequence(a, b[1..])))
  }

  /** The strip keeps the order of the characters it keeps. */
  lemma {:induction false} KeepNumericIsSubsequence(s: string)
    ensures IsSubsequence(KeepNumeric(s), s)
  {
    if s != [] {
      KeepNumericIsSubsequence(s[1..]);
      if !IsNumericChar(s[0]) {
        var r := KeepNumeric(s);
        assert r == KeepNumeric(s[1..]);
      }
    }
  }

  /** The strip keeps every digit and dot of `s`, as many times as it occurs, and nothing else. */
  lemma {:induction false} KeepNumericCounts(s: string)
    ensures forall c :: multiset(KeepNumeric(s))[c] == if IsNumericChar(c) then multiset(s)[c] else 0
  {
    if s != [] {
      KeepNumericCounts(s[1..]);
      assert s == [s[0]] + s[1..];
      assert multiset(s) == multiset([s[0]]) + multiset(s[1..]);
    }
  }

  /** Stripping distributes over concatenation. */
  lemma {:induction false} KeepNumericAppend(s: string, t: string)
    ensures KeepNumeric(s + t) == KeepNumeric(s) + KeepNumeric(t)
  {
    if s != [] {
      assert (s + t)[1..] == s[1..] + t;
      KeepNumericAppend(s[1..], t);
    } else {
      assert s + t == t;
    }
  }

  /** A string is left unchanged by the strip exactly when it is made only of digits and dots. */
  lemma {:induction false} KeepNumericFixpoint(s: string)
    ensures KeepNumeric(s) == s <==> AllNumeric(s)
  {
    if s != [] {
      KeepNumericFixpoint(s[1..]);
      if !IsNumericChar(s[0]) {
        assert |KeepNumeric(s)| < |s|;
      }
    }
  }

  /** Stripping twice is stripping once. */
  lemma KeepNumericIdempotent(s: string)
    ensures KeepNumeric(KeepNumeric(s)) == KeepNumeric(s)
  {
    KeepNumericIsNumeric(s);
    KeepNumericFixpoint(KeepNumeric(s));
  }

  // ---------------------------------------------------------------- decimal digits

  /** The number of ASCII digits at the start of `s`. */
  function LeadingDigits(s: string): (n: nat)
    ensures n <= |s|
  {
    if s != [] && IsDigit(s[0]) then 1 + LeadingDigits(s[1..]) else 0
  }

  /** The run `LeadingDigits` measures is all digits, and whatever follows it is not a digit. */
  lemma {:induction false} LeadingDigitsSpec(s: string)
    ensures var n := LeadingDigits(s);
      && AllDigits(s[..n])
      && (n < |s| ==> !IsDigit(s[n]))
  {
    if s != [] && IsDigit(s[0]) {
      LeadingDigitsSpec(s[1..]);
      assert s[..LeadingDigits(s)] == [s[0]] + s[1..][..LeadingDigits(s[1..])];
    }
  }

  /** The whole number a string of decimal digits denotes. */
  function DigitsValue(ds: string): nat
  {
    if ds == [] then 0 else 10 * DigitsValue(ds[..|ds| - 1]) + DigitValue(ds[|ds| - 1])
  }

  /** The fraction `0.d1d2d3...` a string of decimal digits denotes after a dot. */
  function FractionValue(ds: string): real
  {
    if ds == [] then 0.0 else (DigitValue(ds[0]) as real + FractionValue(ds[1..])) / 10.0
  }

  /** `10^n`, which is at least one. */
  function Pow10(n: nat): (r: real)
    ensures r >= 1.0
  {
    if n == 0 then 1.0 else 10.0 * Pow10(n - 1)
  }

  /** `m` times `10^k`: a multiplication for a non-negative `k`, a division otherwise. */
  function Shift(m: real, k: int): real
  {
    if k >= 0 then m * Pow10(k) else m / Pow10(-k)
  }

  /** The decimal rendering of a whole number, as `${n}` prints it: no sign, no leading zero. */
  function NatText(n: nat): string
  {
    if n < 10 then [DigitChar(n)] else NatText(n / 10) + [DigitChar(n % 10)]
  }

  /** The decimal rendering of an integer, with a leading `-` when negative. */
  function IntText(i: int): string
  {
    if i < 0 then "-" + NatText(-i) else NatText(i)
  }

  /** Rendering a whole number gives a non-empty digit string without a leading zero that reads back as that number. */
  lemma {:induction false} NatTextRoundTrip(n: nat)
    ensures NatText(n) != [] && AllDigits(NatText(n))
    ensures n > 0 ==> NatText(n)[0] != '0'
    ensures DigitsValue(NatText(n)) == n
  {
    if n >= 10 {
      NatTextRoundTrip(n / 10);
      var t := NatText(n);
      assert t[..|t| - 1] == NatText(n / 10);
    }
  }

  /** Digits in front of a string extend its run of leading digits. */
  lemma {:induction false} LeadingDigitsAppend(ds: string, t: string)
    requires AllDigits(ds)
    ensures LeadingDigits(ds + t) == |ds| + LeadingDigits(t)
  {
    if ds != [] {
      assert (ds + t)[1..] == ds[1..] + t;
      LeadingDigitsAppend(ds[1..], t);
    } else {
      assert ds + t == t;
    }
  }

  lemma {:induction false} DigitsHaveNoDot(ds: string)
    requires AllDigits(ds)
    ensures multiset(ds)['.'] == 0
  {
    if ds != [] {
      assert ds == [ds[0]] + ds[1..];
      DigitsHaveNoDot(ds[1..]);
    }
  }

  // ---------------------------------------------------------------- parseFloat

  /**
    `m` scaled by the exponent part (`e` or `E`, an optional sign, digits `k`) at
    the start of `t`: times `10^k`, or `10^-k` for a `-` sign; `m` itself when `t`
    does not start with a complete exponent part.
   */
  function WithExponent(m: real, t: string): real
  {
    if |t| >= 2 && (t[0] == 'e' || t[0] == 'E') then ExponentPart(m, t) else m
  }

  /** `m` scaled by the exponent that follows the `e` at the start of `t`; `m` itself when no digit follows the optional sign. */
  function ExponentPart(m: real, t: string): real
    requires |t| >= 2
  {
    var signed := t[1] == '-' || t[1] == '+';
    var body := if signed then t[2..] else t[1..];
    var k := LeadingDigits(body);
    if k == 0 then m
    else
      var e: int := DigitsValue(body[..k]);
      Shift(m, if t[1] == '-' then -e else e)
  }

  /** The value of `whole.frac` for two runs of digits. */
  function Mantissa(whole: string, frac: string): real
  {
    DigitsValue(whole) as real + FractionValue(frac)
  }

  /**
    The literal in `s` whose point is at index `a`: the integer digits `s[..a]`,
    the fraction digits that follow the point, then an optional exponent; NaN
    when there are no digits on either side of the point.
   */
  function PointLiteral(s: string, a: nat): Number
    requires a < |s|
  {
    var tail := s[a + 1..];
    var f := LeadingDigits(tail);
    if a + f == 0 then NaN
    else Finite(WithExponent(Mantissa(s[..a], tail[..f]), tail[f..]))
  }

  /**
    The value of the longest prefix of `s` that is an unsigned decimal literal
    (digits, an optional dot and fraction digits, at least one digit in all, an
    optional exponent), or NaN when `s` does not start with one.
   */
  function UnsignedPrefix(s: string): Number
  {
    var a := LeadingDigits(s);
    if a < |s| && s[a] == '.' then PointLiteral(s, a)
    else if a == 0 then NaN
    else Finite(WithExponent(DigitsValue(s[..a]) as real, s[a..]))
  }

  /**
    `parseFloat(s)`: skip leading whitespace, read an optional sign, then the longest
    decimal prefix; NaN when there is none. The `Infinity` spelling is not modelled.
   */
  function ParseFloat(s: string): Number
  {
    var t := TrimStart(s);
    if t != [] && (t[0] == '-' || t[0] == '+') then SignedPrefix(t)
    else UnsignedPrefix(t)
  }

  /** The literal after a leading sign, negated for `-`. */
  function SignedPrefix(t: string): Number
    requires t != [] && (t[0] == '-' || t[0] == '+')
  {
    var n := UnsignedPrefix(t[1..]);
    if t[0] == '-' then Negate(n) else n
  }

  /** A character that cannot continue a decimal literal. */
  predicate EndsLiteral(c: char)
  {
    !IsNumericChar(c) && c != 'e' && c != 'E'
  }

  /** `parseFloat` reads back a rendered whole number, whatever non-numeric text follows it. */
  lemma ParseFloatNatText(n: nat, rest: string)
    requires rest == [] || EndsLiteral(rest[0])
    ensures ParseFloat(NatText(n) + rest) == Finite(n as real)
  {
    var ds := NatText(n);
    NatTextRoundTrip(n);
    assert (ds + rest)[0] == ds[0];
    UnsignedAtNumeric(ds + rest);
    DigitsPrefix(ds, rest);
  }

  /** A run of digits ended by a character that cannot continue a literal is read as that whole number. */
  lemma DigitsPrefix(ds: string, rest: string)
    requires ds != [] && AllDigits(ds)
    requires rest == [] || EndsLiteral(rest[0])
    ensures UnsignedPrefix(ds + rest) == Finite(DigitsValue(ds) as real)
  {
    var s := ds + rest;
    LeadingDigitsAppend(ds, rest);
    assert LeadingDigits(rest) == 0 by {
      if rest != [] { assert !IsDigit(rest[0]); }
    }
    assert s[..|ds|] == ds;
    assert s[|ds|..] == rest;
    assert WithExponent(DigitsValue(ds) as real, rest) == DigitsValue(ds) as real;
  }

  /** On a string of digits and dots (no sign, no exponent), `parseFloat` is NaN or non-negative. */
  lemma ParseFloatOfNumericNonNegative(t: string)
    requires AllNumeric(t)
    ensures ParseFloat(t).NaN? || ParseFloat(t).v >= 0.0
  {
    if t != [] {
      assert IsNumericChar(t[0]);
      UnsignedAtNumeric(t);
    }
    UnsignedPrefixOfNumeric(t);
  }

  /** A string that starts with a digit or a dot has no whitespace or sign for `parseFloat` to skip. */
  lemma UnsignedAtNumeric(s: string)
    requires s != [] && IsNumericChar(s[0])
    ensures ParseFloat(s) == UnsignedPrefix(s)
  {
    NumericIsNotSpace(s[0]);
    assert TrimStart(s) == s;
  }

  lemma NumericIsNotSpace(c: char)
    requires IsNumericChar(c)
    ensures !IsSpace(c)
  {
  }

  lemma UnsignedPrefixOfNumeric(t: string)
    requires AllNumeric(t)
    ensures UnsignedPrefix(t).NaN? || UnsignedPrefix(t).v >= 0.0
  {
    var a := LeadingDigits(t);
    if a < |t| && t[a] == '.' {
      var tail := t[a + 1..];
      var f := LeadingDigits(tail);
      FractionNonNegative(tail[..f]);
      NoExponentInNumeric(Mantissa(t[..a], tail[..f]), tail[f..]);
    } else {
      NoExponentInNumeric(DigitsValue(t[..a]) as real, t[a..]);
    }
  }

  /** Digits and dots never start an exponent part. */
  lemma NoExponentInNumeric(m: real, t: string)
    requires AllNumeric(t)
    ensures WithExponent(m, t) == m
  {
    if |t| >= 2 { assert IsNumericChar(t[0]); }
  }

  lemma {:induction false} FractionNonNegative(ds: string)
    ensures 0.0 <= FractionValue(ds) < 1.0
  {
    if ds != [] {
      FractionNonNegative(ds[1..]);
      assert DigitValue(ds[0]) <= 9;
    }
  }

  // ---------------------------------------------------------------- Number(...) on a digit/dot string

  /**
    `Number(t)` for a string `t` made only of digits and dots: 0 for the empty
    string, the decimal value when the whole of `t` is `digits`, `digits.digits`,
    `digits.` or `.digits`, and NaN otherwise (a lone dot, two or more dots).
   */
  function NumericToNumber(t: string): Number
  {
    if t == [] then Finite(0.0)
    else
      var a := LeadingDigits(t);
      if a == |t| then Finite(DigitsValue(t) as real)
      else NumberAfterDigits(t, a)
  }

  /** `Number(t)` when the leading digits of `t` stop at index `a`, before its end: `t[a]` must be the one dot, followed only by digits. */
  function NumberAfterDigits(t: string, a: nat): Number
    requires a < |t|
  {
    if t[a] != '.' then NaN
    else
      var f := LeadingDigits(t[a + 1..]);
      if a + 1 + f == |t| && a + f > 0 then Finite(Mantissa(t[..a], t[a + 1..]))
      else NaN
  }

  /** On a non-empty digit/dot string that `Number` accepts, `parseFloat` agrees with it. */
  lemma NumberAgreesWithParseFloat(t: string)
    requires AllNumeric(t) && t != []
    requires NumericToNumber(t).Finite?
    ensures ParseFloat(t) == NumericToNumber(t)
  {
    assert IsNumericChar(t[0]);
    UnsignedAtNumeric(t);
    if LeadingDigits(t) == |t| {
      WholeDigits(t);
    } else {
      DigitsDotDigits(t);
    }
  }

  lemma WholeDigits(t: string)
    requires t != [] && LeadingDigits(t) == |t|
    ensures UnsignedPrefix(t) == NumericToNumber(t) == Finite(DigitsValue(t) as real)
  {
    assert t[..|t|] == t;
    assert t[|t|..] == [];
  }

  lemma DigitsDotDigits(t: string)
    requires t != [] && LeadingDigits(t) < |t|
    requires NumericToNumber(t).Finite?
    ensures UnsignedPrefix(t) == NumericToNumber(t)
  {
    var a := LeadingDigits(t);
    assert NumericToNumber(t) == NumberAfterDigits(t, a);
    assert t[a] == '.';
    var tail := t[a + 1..];
    var f := LeadingDigits(tail);
    assert f == |tail| && a + f > 0;
    assert UnsignedPrefix(t) == PointLiteral(t, a);
    assert tail[..f] == tail && tail[f..] == [];
    assert PointLiteral(t, a) == Finite(WithExponent(Mantissa(t[..a], tail), []));
  }


  /** `Number` never reads a negative value out of a digit/dot string. */
  lemma NumericToNumberNonNegative(t: string)
    ensures NumericToNumber(t).NaN? || NumericToNumber(t).v >= 0.0
  {
    if t != [] && LeadingDigits(t) < |t| {
      FractionNonNegative(t[LeadingDigits(t) + 1..]);
    }
  }

  /** A digit/dot string with two or more dots is NaN to `Number`. */
  lemma TwoDotsIsNaN(t: string)
    requires AllNumeric(t)
    requires multiset(t)['.'] >= 2
    ensures NumericToNumber(t).NaN?
  {
    var a := LeadingDigits(t);
    LeadingDigitsSpec(t);
    DigitsHaveNoDot(t[..a]);
    if a == |t| {
      assert false;
    } else if t[a] == '.' {
      var f := LeadingDigits(t[a + 1..]);
      LeadingDigitsSpec(t[a + 1..]);
      if a + 1 + f == |t| {
        assert t[a + 1..][..f] == t[a + 1..];
        SingleDot(t, a);
        assert false;
      }
    }
  }

  lemma SingleDot(t: string, a: nat)
    requires a < |t| && t[a] == '.'
    requires AllDigits(t[..a]) && AllDigits(t[a + 1..])
    ensures multiset(t)['.'] == 1
  {
    DigitsHaveNoDot(t[..a]);
    DigitsHaveNoDot(t[a + 1..]);
    assert t == t[..a] + [t[a]] + t[a + 1..];
  }

  /** `s` has no decimal digit at all. */
  predicate NoDigit(s: string)
  {
    forall i :: 0 <= i < |s| ==> !IsDigit(s[i])
  }

  /** Every digit of `s`, if it has any, is `0`. */
  predicate NoNonZeroDigit(s: string)
  {
    forall i :: 0 <= i < |s| ==> s[i] == '0' || !IsDigit(s[i])
  }

  /** Digits that are all `0` denote zero, as a whole number and as a fraction. */
  lemma {:induction false} ZeroDigitsValue(ds: string)
    requires NoNonZeroDigit(ds)
    ensures DigitsValue(ds) == 0 && FractionValue(ds) == 0.0
  {
    if ds != [] {
      ZeroDigitsValue(ds[..|ds| - 1]);
      ZeroDigitsValue(ds[1..]);
    }
  }

  /** A digit/dot string whose only digit is `0` is 0 or NaN to `Number`: `"000"`, `"0.0"`, `"."`. */
  lemma ZeroDigitsNumber(t: string)
    requires NoNonZeroDigit(t)
    ensures NumericToNumber(t) == Finite(0.0) || NumericToNumber(t).NaN?
  {
    if t != [] {
      var a := LeadingDigits(t);
      ZeroDigitsValue(t);
      if a < |t| && t[a] == '.' {
        ZeroDigitsValue(t[..a]);
        ZeroDigitsValue(t[a + 1..]);
      }
    }
  }

  /** The strip adds no digit: a text whose digits are all `0` strips to one. */
  lemma {:induction false} KeepNumericNoNonZeroDigit(s: string)
    requires NoNonZeroDigit(s)
    ensures NoNonZeroDigit(KeepNumeric(s))
  {
    if s != [] {
      KeepNumericNoNonZeroDigit(s[1..]);
      var head := if IsNumericChar(s[0]) then [s[0]] else [];
      assert KeepNumeric(s) == head + KeepNumeric(s[1..]);
      assert s[0] == '0' || !IsDigit(s[0]);
    }
  }

  /** `Number` reads back a rendered whole number. */
  lemma NumericToNumberNatText(n: nat)
    ensures NumericToNumber(NatText(n)) == Finite(n as real)
  {
    NatTextRoundTrip(n);
    LeadingDigitsAppend(NatText(n), []);
    assert NatText(n) + [] == NatText(n);
  }
}

=== FILE: referral.dfy ===
/**
  The lead-source referral-fee table of the commission calculator.

  Each lead source owes a share of the commission to whoever supplied the lead.
  Most entries of the table are a constant rate; the Zillow.com entry is a rule
  on the contract price, and the "Other" entry is a rule that always yields 0.
 */
module Referral {
  import opened Values

  /** The lead sources offered by the form, in the table's key order. */
  datatype LeadSource =
    | Soi
    | Zillow
    | OpCity
    | Movoto
    | ListingCom
    | EzHomeSearch
    | EzReferral
    | MarketVip
    | OpenDoor
    | Other
    | PersonalDeal

  /** Every lead source, in the order the select lists them. */
  const AllSources: seq<LeadSource> :=
    [Soi, Zillow, OpCity, Movoto, ListingCom, EzHomeSearch, EzReferral, MarketVip, OpenDoor, Other, PersonalDeal]

  /** The table key, which is also the value the select submits. */
  function Name(src: LeadSource): string
  {
    match src
    case Soi => "SOI"
    case Zillow => "Zillow.com"
    case OpCity => "OpCity"
    case Movoto => "Movoto.com"
    case ListingCom => "Listing.com"
    case EzHomeSearch => "EZHomesearch.com"
    case EzReferral => "EZ Referral"
    case MarketVip => "MarketVIP"
    case OpenDoor => "OpenDoor (LWOD)"
    case Other => "Other"
    case PersonalDeal => "Personal Deal"
  }

  /** The lead source a select value names; None for the empty "Select a source" value or any other string. */
  function FromName(key: string): (r: Option<LeadSource>)
    ensures r.Some? ==> Name(r.value) == key
  {
    if key == "SOI" then Some(Soi)
    else if key == "Zillow.com" then Some(Zillow)
    else if key == "OpCity" then Some(OpCity)
    else if key == "Movoto.com" then Some(Movoto)
    else if key == "Listing.com" then Some(ListingCom)
    else if key == "EZHomesearch.com" then Some(EzHomeSearch)
    else if key == "EZ Referral" then Some(EzReferral)
    else if key == "MarketVIP" then Some(MarketVip)
    else if key == "OpenDoor (LWOD)" then Some(OpenDoor)
    else if key == "Other" then Some(Other)
    else if key == "Personal Deal" then Some(PersonalDeal)
    else None
  }

  /** Every source's key looks that source up again, the keys are pairwise distinct, and the select lists each source once. */
  lemma NamesRoundTrip(src: LeadSource)
    ensures FromName(Name(src)) == Some(src)
    ensures src in AllSources
    ensures FromName("") == None
    ensures forall other: LeadSource :: Name(other) == Name(src) ==> other == src
  {
    KeyFindsSource(src);
    forall other: LeadSource | Name(other) == Name(src)
      ensures other == src
    {
      KeyFindsSource(other);
    }
  }

  lemma KeyFindsSource(src: LeadSource)
    ensures FromName(Name(src)) == Some(src)
  {
  }

  /** An entry of the referral table: a fixed rate, or a rule applied to the contract price. */
  datatype FeeRule = Fixed(rate: real) | ByPrice(rule: real -> real)

  /** The Zillow.com tiers: 30% below 150,000, 35% up to and including 250,000, 40% above. */
  function ZillowRate(price: real): real
  {
    if price < 150000.0 then 0.3 else if price <= 250000.0 then 0.35 else 0.4
  }

  /** The referral table. */
  function Rule(src: LeadSource): FeeRule
  {
    match src
    case Soi => Fixed(0.0)
    case Zillow => ByPrice(ZillowRate)
    case OpCity => Fixed(0.25)
    case Movoto => Fixed(0.175)
    case ListingCom => Fixed(0.0)
    case EzHomeSearch => Fixed(0.0)
    case EzReferral => Fixed(0.25)
    case MarketVip => Fixed(0.3)
    case OpenDoor => Fixed(0.35)
    case Other => ByPrice(_ => 0.0)
    case PersonalDeal => Fixed(0.0)
  }

  /** The table entry applied to a price: a rule is called with it, a constant is taken as is. */
  function Apply(rule: FeeRule, price: real): real
  {
    match rule
    case Fixed(r) => r
    case ByPrice(f) => f(price)
  }

  /**
    The rate the calculation resolves: the Zillow.com entry is called directly with
    the price, every other entry is called when it is a rule and read when it is a
    constant.
   */
  function ReferralRate(src: LeadSource, price: real): (r: real)
    ensures 0.0 <= r <= 1.0
  {
    if src == Zillow then ZillowRate(price) else Apply(Rule(src), price)
  }

  /** The direct Zillow.com call agrees with the generic table dispatch, so the table alone defines every rate. */
  lemma ReferralRateIsTableEntry(src: LeadSource, price: real)
    ensures ReferralRate(src, price) == Apply(Rule(src), price)
  {
  }

  /** Which sources carry a fee: the constant rates as listed, Other always 0, Zillow.com between 30% and 40%. */
  lemma RateTable(price: real)
    ensures ReferralRate(Soi, price) == 0.0
    ensures ReferralRate(OpCity, price) == 0.25
    ensures ReferralRate(Movoto, price) == 0.175
    ensures ReferralRate(ListingCom, price) == 0.0
    ensures ReferralRate(EzHomeSearch, price) == 0.0
    ensures ReferralRate(EzReferral, price) == 0.25
    ensures ReferralRate(MarketVip, price) == 0.3
    ensures ReferralRate(OpenDoor, price) == 0.35
    ensures ReferralRate(Other, price) == 0.0
    ensures ReferralRate(PersonalDeal, price) == 0.0
    ensures 0.3 <= ReferralRate(Zillow, price) <= 0.4
  {
  }

  /** A rate of zero exactly for the fee-free sources. */
  lemma FeeFreeSources(src: LeadSource, price: real)
    ensures ReferralRate(src, price) == 0.0 <==> src in {Soi, ListingCom, EzHomeSearch, Other, PersonalDeal}
  {
  }

  /** The Zillow.com tiers, each boundary on the side the comparisons put it. */
  lemma ZillowTiers(price: real)
    ensures price < 150000.0 ==> ZillowRate(price) == 0.3
    ensures 150000.0 <= price <= 250000.0 ==> ZillowRate(price) == 0.35
    ensures 250000.0 < price ==> ZillowRate(price) == 0.4
  {
  }

  /** A dearer house never lowers the Zillow.com rate. */
  lemma ZillowMonotone(p: real, q: real)
    requires p <= q
    ensures ZillowRate(p) <= ZillowRate(q)
  {
  }
}

=== FILE: scenarios.dfy ===
/**
  Worked deals, with the breakdown the calculation gives for each. The price is
  entered as a user types it; the commission text is the form's fixed `"3%"` or,
  for the flat-amount reading of `parseCommission`, a text such as `"$9,000"` that
  the form as written never produces. Each deal is proved in steps: what
  the form's widgets read as, what the commission text and the tables resolve
  to, and the settled arithmetic.
 */
module Scenarios {
  import opened Values
  import opened JsText
  import opened Referral
  import opened Splits
  import opened CommissionInput
  import opened Engine
  import opened EngineLaws

  // ---------------------------------------------------------------- reading the text fields

  /** A price typed with a dollar sign and thousands separators reads as the whole number. */
  lemma TypedPrice(text: string, n: nat)
    requires KeepNumeric(text) == NatText(n)
    ensures PriceFromText(text) == Finite(n as real)
  {
    PriceFieldReading(text);
  }

  /** The digit/dot strip drops a leading dollar sign and a thousands comma. */
  lemma StripThousands(a: string, b: string)
    requires AllDigits(a) && AllDigits(b)
    ensures KeepNumeric("$" + a + "," + b) == a + b
  {
    var tail := [','] + b;
    assert "$" + a + "," + b == ['$'] + (a + tail);
    SkipFormatting('$', a + tail);
    KeepNumericAppend(a, tail);
    SkipFormatting(',', b);
    assert AllNumeric(a) && AllNumeric(b);
    KeepNumericFixpoint(a);
    KeepNumericFixpoint(b);
  }

  /** A character other than a digit or a dot is dropped by the strip. */
  lemma SkipFormatting(c: char, s: string)
    requires !IsNumericChar(c)
    ensures KeepNumeric([c] + s) == KeepNumeric(s)
  {
    assert ([c] + s)[1..] == s;
  }

  lemma Render300000()
    ensures NatText(300000) == "300000"
  {
    assert NatText(3) == "3";
    assert NatText(30) == "30";
    assert NatText(300) == "300";
    assert NatText(3000) == "3000";
    assert NatText(30000) == "30000";
  }

  lemma Render200000()
    ensures NatText(200000) == "200000"
  {
    assert NatText(2) == "2";
    assert NatText(20) == "20";
    assert NatText(200) == "200";
    assert NatText(2000) == "2000";
    assert NatText(20000) == "20000";
  }

  lemma Render500000()
    ensures NatText(500000) == "500000"
  {
    assert NatText(5) == "5";
    assert NatText(50) == "50";
    assert NatText(500) == "500";
    assert NatText(5000) == "5000";
    assert NatText(50000) == "50000";
  }

  lemma Render2000000()
    ensures NatText(2000000) == "2000000"
  {
    Render200000();
    assert NatText(2000000) == NatText(200000) + "0";
  }

  lemma ThreeText()
    ensures "" + (NatText(3) + "%") + "" == "3%"
  {
    assert NatText(3) == "3";
    var core := NatText(3) + "%";
    assert core == "3%";
    assert "" + core == core;
    assert core + "" == core;
  }

  /** "3%" on a price is three percent of it. */
  lemma ThreePercent(price: real)
    ensures ParseCommission("3%", price) == Finite(PercentOf(price, 3.0))
  {
    PercentOfPrice(3, "", "", price);
    ThreeText();
  }

  lemma NineThousandText()
    ensures !EndsWith(Trim("$9,000"), "%")
    ensures KeepNumeric("$9,000") == NatText(9000)
  {
    NineThousandTrimmed();
    NineThousandDigits();
  }

  lemma NineThousandTrimmed()
    ensures Trim("$9,000") == "$9,000"
  {
    NineThousandTrimStart();
    NineThousandTrimEnd();
  }

  lemma NineThousandTrimStart()
    ensures TrimStart("$9,000") == "$9,000"
  {
    assert !IsSpace('$');
  }

  lemma NineThousandTrimEnd()
    ensures TrimEnd("$9,000") == "$9,000"
  {
    assert !IsSpace('0');
  }

  lemma NineThousandDigits()
    ensures KeepNumeric("$9,000") == NatText(9000)
  {
    StripThousands("9", "000");
    assert "$" + "9" + "," + "000" == "$9,000";
    Render9000();
  }

  lemma Render9000()
    ensures NatText(9000) == "9" + "000"
  {
    assert NatText(9) == "9";
    assert NatText(90) == "90";
    assert NatText(900) == "900";
  }

  /** "$9,000" is a flat 9,000 whatever the price. */
  lemma NineThousandFlat(price: real)
    ensures ParseCommission("$9,000", price) == Finite(9000.0)
  {
    NineThousandText();
    FlatWholeAmount("$9,000", price, 9000);
  }

  lemma Label60()
    ensures SplitLabel(0.6) == "60/40"
  {
    WholePercentLabel(0.6, 60);
    assert NatText(60) == "60" && NatText(40) == "40";
    var t := NatText(60) + "/" + NatText(40);
    assert t == "60/40";
  }

  lemma Label50()
    ensures SplitLabel(0.5) == "50/50"
  {
    WholePercentLabel(0.5, 50);
    assert NatText(50) == "50";
    var t := NatText(50) + "/" + NatText(50);
    assert t == "50/50";
  }

  // ---------------------------------------------------------------- SOI, third year, capped

  lemma SoiPrice()
    ensures PriceFromText("$300,000") == Finite(300000.0)
  {
    StripThousands("300", "000");
    assert "$" + "300" + "," + "000" == "$300,000";
    Render300000();
    assert NatText(300000) == "300" + "000";
    TypedPrice("$300,000", 300000);
  }

  lemma SoiForm()
    ensures DealFromForm("$300,000", "3%", "SOI", "3", Some(true)) == Deal(Finite(300000.0), "3%", Some(Soi), Some(3), Some(true))
  {
    SoiPrice();
    NamesRoundTrip(Soi);
  }

  lemma SoiCommission()
    ensures ParseCommission("3%", 300000.0) == Finite(9000.0)
  {
    ThreePercent(300000.0);
    assert PercentOf(300000.0, 3.0) == 9000.0;
  }

  lemma SoiReferral()
    ensures ReferralRate(Soi, 300000.0) == 0.0
  {
    RateTable(300000.0);
  }

  lemma SoiInputs()
    ensures ParseCommission("3%", 300000.0) == Finite(9000.0)
    ensures ReferralRate(Soi, 300000.0) == 0.0
    ensures AgentSplit(Soi, 3) == 0.6
  {
    SoiCommission();
    SoiReferral();
  }

  lemma SoiCalculation()
    ensures Calculate(300000.0, "3%", Soi, 3, true) == Settle(Finite(9000.0), 0.0, 0.6, true, SplitLabel(0.6))
  {
    CalculateSettles(300000.0, "3%", Soi, 3, true);
    SoiInputs();
  }

  lemma SoiSettle()
    ensures Settle(Finite(9000.0), 0.0, 0.6, true, SplitLabel(0.6))
      == Breakdown(Finite(9000.0), 0.0, Finite(9000.0), Finite(5400.0), Finite(0.0), Finite(0.0), Finite(5400.0), "60/40")
  {
    Label60();
  }

  /** An SOI deal in the third year, capped: 3% of 300,000 at a 60/40 split nets 5,400. */
  lemma SoiThirdYearCapped()
    ensures Compute(DealFromForm("$300,000", "3%", "SOI", "3", Some(true)))
      == Calculated(Breakdown(Finite(9000.0), 0.0, Finite(9000.0), Finite(5400.0),
                             Finite(0.0), Finite(0.0), Finite(5400.0), "60/40"))
  {
    SoiForm();
    CompleteDealCalculates(300000.0, "3%", Soi, 3, true);
    SoiCalculation();
    SoiSettle();
  }

  // ---------------------------------------------------------------- Zillow.com, middle tier, not capped

  lemma ZillowPrice()
    ensures PriceFromText("$200,000") == Finite(200000.0)
  {
    StripThousands("200", "000");
    assert "$" + "200" + "," + "000" == "$200,000";
    Render200000();
    assert NatText(200000) == "200" + "000";
    TypedPrice("$200,000", 200000);
  }

  lemma ZillowForm()
    ensures DealFromForm("$200,000", "3%", "Zillow.com", "2", Some(false)) == Deal(Finite(200000.0), "3%", Some(Zillow), Some(2), Some(false))
  {
    ZillowPrice();
    NamesRoundTrip(Zillow);
  }

  lemma ZillowCommission()
    ensures ParseCommission("3%", 200000.0) == Finite(6000.0)
  {
    ThreePercent(200000.0);
    assert PercentOf(200000.0, 3.0) == 6000.0;
  }

  lemma ZillowReferral()
    ensures ReferralRate(Zillow, 200000.0) == 0.35
  {
    ZillowTiers(200000.0);
  }

  lemma ZillowInputs()
    ensures ParseCommission("3%", 200000.0) == Finite(6000.0)
    ensures ReferralRate(Zillow, 200000.0) == 0.35
    ensures AgentSplit(Zillow, 2) == 0.5
  {
    ZillowCommission();
    ZillowReferral();
  }

  lemma ZillowCalculation()
    ensures Calculate(200000.0, "3%", Zillow, 2, false) == Settle(Finite(6000.0), 0.35, 0.5, false, SplitLabel(0.5))
  {
    CalculateSettles(200000.0, "3%", Zillow, 2, false);
    ZillowInputs();
  }


  lemma ZillowSettle()
    ensures Settle(Finite(6000.0), 0.35, 0.5, false, SplitLabel(0.5))
      == Breakdown(Finite(6000.0), 0.35, Finite(3900.0), Finite(1950.0), Finite(585.0), Finite(117.0), Finite(1248.0), "50/50")
  {
    Label50();
  }

  /** A Zillow.com lead at 200,000, not capped: the middle tier's 35% referral, an even split, 30% and 6% to the brokerage. */
  lemma ZillowMiddleTierUncapped()
    ensures Compute(DealFromForm("$200,000", "3%", "Zillow.com", "2", Some(false)))
      == Calculated(Breakdown(Finite(6000.0), 0.35, Finite(3900.0), Finite(1950.0),
                             Finite(585.0), Finite(117.0), Finite(1248.0), "50/50"))
  {
    ZillowForm();
    CompleteDealCalculates(200000.0, "3%", Zillow, 2, false);
    ZillowCalculation();
    ZillowSettle();
  }

  // ---------------------------------------------------------------- MarketVIP, flat commission, capped

  lemma MarketVipPrice()
    ensures PriceFromText("$500,000") == Finite(500000.0)
  {
    StripThousands("500", "000");
    assert "$" + "500" + "," + "000" == "$500,000";
    Render500000();
    assert NatText(500000) == "500" + "000";
    TypedPrice("$500,000", 500000);
  }

  lemma MarketVipForm()
    ensures DealFromForm("$500,000", "$9,000", "MarketVIP", "1", Some(true)) == Deal(Finite(500000.0), "$9,000", Some(MarketVip), Some(1), Some(true))
  {
    MarketVipPrice();
    NamesRoundTrip(MarketVip);
  }

  lemma MarketVipReferral()
    ensures ReferralRate(MarketVip, 500000.0) == 0.3
  {
    RateTable(500000.0);
  }

  lemma MarketVipInputs()
    ensures ParseCommission("$9,000", 500000.0) == Finite(9000.0)
    ensures ReferralRate(MarketVip, 500000.0) == 0.3
    ensures AgentSplit(MarketVip, 1) == 0.5
  {
    NineThousandFlat(500000.0);
    MarketVipReferral();
  }

  lemma MarketVipCalculation()
    ensures Calculate(500000.0, "$9,000", MarketVip, 1, true) == Settle(Finite(9000.0), 0.3, 0.5, true, SplitLabel(0.5))
  {
    CalculateSettles(500000.0, "$9,000", MarketVip, 1, true);
    MarketVipInputs();
  }


  lemma MarketVipSettle()
    ensures Settle(Finite(9000.0), 0.3, 0.5, true, SplitLabel(0.5))
      == Breakdown(Finite(9000.0), 0.3, Finite(6300.0), Finite(3150.0), Finite(0.0), Finite(0.0), Finite(3150.0), "50/50")
  {
    Label50();
  }

  /** A flat "$9,000" commission on a MarketVIP lead, capped: 30% referral, an even split, 3,150 net. */
  lemma FlatMarketVipCapped()
    ensures Compute(DealFromForm("$500,000", "$9,000", "MarketVIP", "1", Some(true)))
      == Calculated(Breakdown(Finite(9000.0), 0.3, Finite(6300.0), Finite(3150.0),
                             Finite(0.0), Finite(0.0), Finite(3150.0), "50/50"))
  {
    MarketVipForm();
    CompleteDealCalculates(500000.0, "$9,000", MarketVip, 1, true);
    MarketVipCalculation();
    MarketVipSettle();
  }

  // ---------------------------------------------------------------- personal deal, both caps reached

  lemma PersonalPrice()
    ensures PriceFromText("2000000") == Finite(2000000.0)
  {
    assert AllNumeric("2000000");
    KeepNumericFixpoint("2000000");
    Render2000000();
    TypedPrice("2000000", 2000000);
  }

  lemma PersonalForm()
    ensures DealFromForm("2000000", "3%", "Personal Deal", "6", Some(false)) == Deal(Finite(2000000.0), "3%", Some(PersonalDeal), Some(6), Some(false))
  {
    PersonalPrice();
    NamesRoundTrip(PersonalDeal);
  }

  lemma PersonalCommission()
    ensures ParseCommission("3%", 2000000.0) == Finite(60000.0)
  {
    ThreePercent(2000000.0);
    assert PercentOf(2000000.0, 3.0) == 60000.0;
  }

  lemma PersonalReferral()
    ensures ReferralRate(PersonalDeal, 2000000.0) == 0.0
  {
    RateTable(2000000.0);
  }

  lemma PersonalInputs()
    ensures ParseCommission("3%", 2000000.0) == Finite(60000.0)
    ensures ReferralRate(PersonalDeal, 2000000.0) == 0.0
    ensures AgentSplit(PersonalDeal, 6) == 1.0
  {
    PersonalCommission();
    PersonalReferral();
  }

  lemma PersonalCalculation()
    ensures Calculate(2000000.0, "3%", PersonalDeal, 6, false) == Settle(Finite(60000.0), 0.0, 1.0, false, SplitLabel(1.0))
  {
    CalculateSettles(2000000.0, "3%", PersonalDeal, 6, false);
    PersonalInputs();
  }


  lemma PersonalSettle()
    ensures Settle(Finite(60000.0), 0.0, 1.0, false, SplitLabel(1.0))
      == Breakdown(Finite(60000.0), 0.0, Finite(60000.0), Finite(60000.0), Finite(5000.0), Finite(3000.0), Finite(52000.0), "100/0")
  {
    FullSplitLabel();
  }

  /** A two-million personal deal before capping: both brokerage deductions stop at their caps. */
  lemma PersonalDealHitsBothCaps()
    ensures Compute(DealFromForm("2000000", "3%", "Personal Deal", "6", Some(false)))
      == Calculated(Breakdown(Finite(60000.0), 0.0, Finite(60000.0), Finite(60000.0),
                             Finite(5000.0), Finite(3000.0), Finite(52000.0), "100/0"))
  {
    PersonalForm();
    CompleteDealCalculates(2000000.0, "3%", PersonalDeal, 6, false);
    PersonalCalculation();
    PersonalSettle();
  }
}

=== FILE: splits.dfy ===
/**
  The agent's share of the commission left after the referral fee, and the
  "agent/brokerage" label the summary shows for it.
 */
module Splits {
  import opened Values
  import opened JsText
  import opened Referral

  /** Years with the company, as the tenure select offers them; 6 stands for "6+ Years". */
  type Tenure = y: int | 1 <= y <= 6 witness 1

  /** The sphere-of-influence split table, by tenure. */
  function SoiSplit(years: Tenure): real
  {
    match years
    case 1 => 0.5
    case 2 => 0.6
    case 3 => 0.6
    case 4 => 0.65
    case 5 => 0.65
    case 6 => 0.7
  }

  /** The SOI split grows with tenure, from half in the first year to 70% from the sixth. */
  lemma SoiSplitMonotone(a: Tenure, b: Tenure)
    requires a <= b
    ensures 0.5 <= SoiSplit(a) <= SoiSplit(b) <= 0.7
  {
  }

  /** The agent's split: the tenure table for SOI, all of it for a personal deal, half otherwise. */
  function AgentSplit(src: LeadSource, years: Tenure): (r: real)
    ensures 0.5 <= r <= 1.0
  {
    if src == PersonalDeal then 1.0
    else if src == Soi then SoiSplit(years)
    else 0.5
  }

  /** Only a personal deal keeps the whole commission; only SOI depends on tenure; every other source is split evenly. */
  lemma AgentSplitPolicy(src: LeadSource, years: Tenure)
    ensures AgentSplit(src, years) == 1.0 <==> src == PersonalDeal
    ensures src == Soi ==> AgentSplit(src, years) == SoiSplit(years)
    ensures src != Soi && src != PersonalDeal ==> AgentSplit(src, years) == 0.5
    ensures forall other: Tenure :: src != Soi ==> AgentSplit(src, other) == AgentSplit(src, years)
  {
  }

  /** The split in whole percent, as `Math.round(split * 100)`. */
  function SplitPercent(split: real): int
  {
    Round(split * 100.0)
  }

  /** The summary's split label: the agent's rounded percent, a slash, the brokerage's rounded percent. */
  function SplitLabel(split: real): string
  {
    IntText(Round(split * 100.0)) + "/" + IntText(Round((1.0 - split) * 100.0))
  }

  /** Reads a label of the form `digits/digits` back into its two percentages. */
  function ParseLabel(text: string): Option<(nat, nat)>
  {
    var i := LeadingDigits(text);
    if 0 < i < |text| && text[i] == '/' && i + 1 < |text| && AllDigits(text[i + 1..]) then
      Some((DigitsValue(text[..i]), DigitsValue(text[i + 1..])))
    else None
  }

  /** A label built from two whole percentages reads back as those two percentages. */
  lemma LabelRoundTrip(a: nat, b: nat)
    ensures ParseLabel(NatText(a) + "/" + NatText(b)) == Some((a, b))
  {
    NatTextRoundTrip(a);
    NatTextRoundTrip(b);
    SplitAtSlash(NatText(a), NatText(b));
  }

  /** Two runs of digits joined by a slash read back as their two values. */
  lemma SplitAtSlash(left: string, right: string)
    requires left != [] && right != [] && AllDigits(left) && AllDigits(right)
    ensures ParseLabel(left + "/" + right) == Some((DigitsValue(left), DigitsValue(right)))
  {
    var whole := left + "/" + right;
    assert whole == left + ("/" + right);
    LeadingDigitsAppend(left, "/" + right);
    assert LeadingDigits("/" + right) == 0;
    assert whole[|left|] == '/';
    assert whole[..|left|] == left;
    assert whole[|left| + 1..] == right;
  }

  /** A split of exactly `k` percent is labelled `k/(100-k)`. */
  lemma WholePercentLabel(split: real, k: int)
    requires 0 <= k <= 100 && split * 100.0 == k as real
    ensures SplitPercent(split) == k
    ensures SplitLabel(split) == NatText(k) + "/" + NatText(100 - k)
  {
    assert (1.0 - split) * 100.0 == (100 - k) as real;
  }

  /** Every split the calculation can pick is a whole percentage, so its label reads back as two halves adding up to 100. */
  lemma AgentSplitLabel(src: LeadSource, years: Tenure)
    ensures var p := SplitPercent(AgentSplit(src, years));
      && 50 <= p <= 100
      && ParseLabel(SplitLabel(AgentSplit(src, years))) == Some((p as nat, (100 - p) as nat))
  {
    var s := AgentSplit(src, years);
    var k: int :=
      if s == 0.5 then 50 else if s == 0.6 then 60 else if s == 0.65 then 65
      else if s == 0.7 then 70 else 100;
    assert s * 100.0 == k as real;
    WholePercentLabel(s, k);
    LabelRoundTrip(k, 100 - k);
  }
}

=== FILE: values.dfy ===
/**
  Values the calculator handles: an optional form selection, and a JavaScript
  number as far as this calculator can produce one.

  Amounts are exact reals here; IEEE-754 double rounding and overflow to Infinity
  are not modelled. With the commission text fixed at `"3%"`, and apart from that
  overflow, the one non-finite value the calculator can reach is NaN (a contract
  price whose digits and dots do not form a number: a lone dot, two dots), so a
  number is either NaN or a finite real.
 */
module Values {

  /** A form field that may still be unset (the empty select option, the `null` radio state). */
  datatype Option<+T> = None | Some(value: T)

  /** A JavaScript number restricted to NaN and the finite values. */
  datatype Number = NaN | Finite(v: real)

  /** `x * k` for a finite factor `k`: NaN stays NaN. */
  function Scale(x: Number, k: real): Number
  {
    match x
    case NaN => NaN
    case Finite(a) => Finite(a * k)
  }

  /** `x - y`: NaN if either operand is NaN. */
  function Minus(x: Number, y: Number): Number
  {
    if x.NaN? || y.NaN? then NaN else Finite(x.v - y.v)
  }

  /** `Math.min(x, cap)` for a finite `cap`: NaN if `x` is NaN. */
  function MinWith(x: Number, cap: real): Number
  {
    match x
    case NaN => NaN
    case Finite(a) => Finite(if a <= cap then a else cap)
  }

  /** `-x`. */
  function Negate(x: Number): Number
  {
    match x
    case NaN => NaN
    case Finite(a) => Finite(-a)
  }

  /** `Math.round`: the nearest integer, halves rounded towards positive infinity. */
  function Round(x: real): (r: int)
    ensures x - 0.5 < r as real <= x + 0.5
  {
    (x + 0.5).Floor
  }
}
